=== FILE: README.md ===
# pinax-api resource engine, modelled in Dafny

This project models the resource mapping engine of pinax-api
(`pinax/api/resource.py`). The engine maps domain objects onto JSON:API-style
resource documents and back. It has six parts:

- `Resource.populate` builds a domain object from a request payload. It writes
  the attributes. It looks up and stores each to-one target. It validates each
  collection and attaches the collection write as a deferred
  `save_relationships` closure.
- `Resource.save` takes the create path for an unsaved object and the update
  path otherwise.
- `Resource.get_identifier` returns `{type, id}`.
- `Resource.get_self_link` walks the chain of viewset bindings, root first, to
  build the URL lookup map for route reversal.
- `Resource.serializable` builds the output resource object.
- `resolve_include` follows a dotted include path.

The model is functional. Objects, payloads, resource classes and viewset
chains are immutable datatypes. Every failure is a `Result` error value named
after the Python exception:
- `KeyError`
- `AttributeError`
- `TypeError`
- `ValueError`
- `FieldDoesNotExist`
- `ValidationError` (keyed by relationship name)
- `RuntimeError`
- `SerializationError`

Some parts of the system are not computed by the model. They enter as
parameters instead:
- the object store, as a map from model name to a table from primary key to
  object;
- model metadata, as a map from field name to field;
- persistence (`full_clean()` and `save()`);
- URL reversal;
- `build_absolute_uri`.

Python dicts are insertion-ordered association lists (module `Dicts`).
`sorted(set(...))` is a duplicate-free insertion sort under Python's code-point
order on strings (module `Text`).

The model follows the code where its behaviour is not the one a reader would
first expect:
- `resolve_include` recurses on the same resource, not the related one. A path
  without "." leaves the remainder as `[]`. The recursive call on that `[]`
  fails at `path.split` with `AttributeError`, so a dotless path fails as soon
  as its collection has an object (`Includes.DotlessPathFailsOnObjects`).
- Each collection relationship replaces `obj.save_relationships`, so only the
  last collection's write survives (`Populator.LastCollectionWins`). Earlier
  collections are validated but never written.
- The deferred write `save(self, parent=None)` is stored on the instance, so
  it is not bound. The first argument of `obj.save_relationships(...)` fills
  `self` and is ignored. Calling it with no argument raises `TypeError`, and
  a single argument leaves the write on the object it was attached to.
- `populate` writes every payload attribute with `setattr(obj, f.attname, v)`,
  whatever the field's kind. A reverse relation has no `attname`, so it fails
  with `AttributeError`. A many-to-many `attname` is the relation's
  descriptor, which refuses an unsaved object with `ValueError`. A to-one
  relationship declared over a many-to-many field also ends there, or in
  `TypeError` on a saved object (`Scenarios.RelationAttributesRefused`,
  `Scenarios.ToOneOverManyToManyFails`).
- `serializable` reads each relationship from the attribute named like the
  relationship. It does not use `rel.attr`, which `populate` uses.
- In `get_self_link`, the root level takes the resource's own object. Each
  deeper level dereferences its lookup field from the object of the level
  above. A lookup field shared by two levels keeps one map entry, holding the
  deeper level's value (`Scenarios.SharedLookupCollapses`).

`getattr(obj, "pk")` reads the object's key, as Django's `pk` property does.
Every other name reads the stored fields. A fresh `cls.model()` holds `None`
under the storage attribute of every column and forward key, and also under
each forward key's own name, where the related object is read.

## Model

| member | source | states |
|---|---|---|
| `Dicts.Get` | pinax/api/resource.py:44 | a lookup finds a value exactly when the key is present |
| `Dicts.Put` | pinax/api/resource.py:146 | after `d[k] = v` the key reads back as `v` |
| `Dicts.PutOthers` | pinax/api/resource.py:146 | `d[k] = v` leaves every other key's value unchanged |
| `Dicts.PutKeys` | pinax/api/resource.py:133 | an assigned key keeps its position when present and otherwise goes last |
| `Dicts.PutNew` | pinax/api/resource.py:133 | assigning a new key appends exactly one entry |
| `Dicts.PutKeepsUnique` | pinax/api/resource.py:146 | assignment never duplicates a key |
| `Dicts.GetEntry` | pinax/api/resource.py:148 | in a dict with unique keys, every entry is what a lookup of its key returns |
| `Text.SortUnique` | pinax/api/resource.py:76 | `sorted(set(xs))` is strictly increasing and has exactly the elements of `xs` |
| `Text.SortedUnique` | pinax/api/resource.py:76 | two strictly sorted sequences with the same elements are equal, so the sorted output is unique |
| `Text.BelowTotal` | pinax/api/resource.py:76 | string order is total, so any two missing ids are comparable |
| `Text.BelowTransitive` | pinax/api/resource.py:76 | string order is transitive |
| `Text.JoinContainsParts` | pinax/api/resource.py:76 | every id joined with `", "` appears in the joined text |
| `Populator.WriteAttributes` | pinax/api/resource.py:39-41 | the attribute loop succeeds exactly when every payload key names a field whose storage attribute takes the value (a column or forward key; a many-to-many only on a saved object); otherwise it fails with `FieldDoesNotExist` for an unknown key, `AttributeError` on `attname` for a reverse relation or `ValueError` for a many-to-many on an unsaved object; it keeps the key and the deferred write |
| `Populator.WriteAttributesFailsAtFirst` | pinax/api/resource.py:39-41 | the error raised is that of the first payload key, in payload order, that is unknown or whose storage attribute refuses the value |
| `Populator.WriteAttributesEffect` | pinax/api/resource.py:39-41 | every field the loop does not target keeps its value, every target is present, and an entry no later entry overwrites is stored |
| `Populator.AttributesWritten` | pinax/api/resource.py:39-41 | with unique payload keys and distinct storage attributes, every payload value is stored under its field's `attname` |
| `Populator.LinkToOne` | pinax/api/resource.py:45-56 | a found target is stored at the field's `attname` and nothing else changes, which happens only for a foreign key; a missing id yields `ValidationError` keyed by the relationship name whose message contains the id; a missing id always leads there; a found target of a many-to-many field fails with `ValueError` on an unsaved object and `TypeError` on a saved one |
| `Populator.Absent` | pinax/api/resource.py:69-71 | the ids not found are exactly the given ids minus the stored keys |
| `Populator.CollectionWriteFetchesGiven` | pinax/api/resource.py:69-70 | the written objects are exactly the stored objects of the given ids, as `filter(pk__in=given)` finds them, one per distinct id |
| `Populator.CollectionWrite` | pinax/api/resource.py:61-78 | on success every id is stored and the write targets the accessor with the objects in sorted id order; otherwise `ValidationError` keyed by the relationship, listing the sorted missing ids joined by `", "`, each of them in the message; any missing id leads there |
| `Populator.MissingListed` | pinax/api/resource.py:73-77 | every missing id appears in the collection error message |
| `Populator.CollectionWriteSetDetermined` | pinax/api/resource.py:61 | the outcome, including the message, depends only on the set of given ids and not on their order or repeats |
| `Populator.LinkCollection` | pinax/api/resource.py:80-84 | a validated collection changes no field and no key; it only attaches its deferred write |
| `Populator.LinkRelationship` | pinax/api/resource.py:44 | a payload relationship that is not declared fails with `KeyError` naming it |
| `Populator.LinkRelationships` | pinax/api/resource.py:43-84 | on success every payload relationship is declared, the key is kept, only to-one storage attributes change, and without collections the deferred write is untouched |
| `Populator.LinkRelationshipsStoresToOne` | pinax/api/resource.py:43-56 | after the loop, every to-one relationship whose storage attribute no later to-one rewrites holds the object looked up for its id |
| `Populator.LinkRelationshipsFailsAt` | pinax/api/resource.py:43-84 | the loop returns the error of the first relationship that fails, after applying the ones before it in payload order |
| `Populator.LastCollectionWins` | pinax/api/resource.py:84 | the deferred write left on the object is the one of the last collection relationship in the payload |
| `Populator.NewObject` | pinax/api/resource.py:38 | no contract of its own: `Scenarios.PopulatedColumns` states that a fresh object reads `None` in every column the payload leaves out, and `Scenarios.FreshToOneIsNull` that its forward key reads as null |
| `Populator.Populate` | pinax/api/resource.py:36-85 | a payload without attributes fails with `KeyError`; on success the class is kept, every payload relationship is declared, and the key is the passed object's key, or none for the fresh object made when no object is passed |
| `Populator.PopulateWritesAttributes` | pinax/api/resource.py:37-41 | after populate, every payload attribute not overwritten by a to-one relationship holds its value, and every other field is as in the starting object |
| `Populator.AddAll` | pinax/api/resource.py:83 | `add(*qs)` keeps the collection's existing objects in front, contains every target afterwards, and adds nothing else |
| `Populator.SaveRelationships` | pinax/api/resource.py:80-84 | without an attached write there is no `save_relationships`; the unbound closure takes one or two positional arguments and raises `TypeError` otherwise; the write goes to the second argument when it is an object, else to the object it was attached to; it adds the targets to that parent's accessor collection and changes nothing else |
| `Populator.SelfArgumentIgnored` | pinax/api/resource.py:80-84 | the first argument fills `self` and never matters, so one argument writes to the attached object |
| `Identity.Save` | pinax/api/resource.py:100-108 | create runs exactly when the key is `None` and update otherwise; the resource is rebound to the persisted object; persistence errors propagate |
| `Identity.SaveCreatesOnce` | pinax/api/resource.py:100-108 | when persisting assigns a key, the next save of a created resource takes the update path |
| `Identity.GetIdentifier` | pinax/api/resource.py:110-114 | no contract of its own: `Identity.IdentifierSeparatesSaved` states that saved identifiers are equal exactly when type and key are, and `Identity.UnsavedIdentifier` that an unsaved object's id is "None" |
| `Identity.IdentifierStable` | pinax/api/resource.py:110-114 | the identifier depends only on `api_type` and the key, so repeated calls agree |
| `Identity.IdentifierSeparatesSaved` | pinax/api/resource.py:110-114 | saved resources have equal identifiers exactly when their types and keys are equal |
| `Identity.UnsavedIdentifier` | pinax/api/resource.py:113 | an unsaved object's id is the string "None" |
| `Links.Resolve` | pinax/api/resource.py:120-133 | resolving succeeds only for a class bound to a viewset |
| `Links.GetSelfLink` | pinax/api/resource.py:116-141 | an unbound class anywhere on the chain gives `RuntimeError` with the binding message; success implies the whole chain is bound |
| `Links.ResolveNeedsBinding` | pinax/api/resource.py:124-128 | the binding error arises exactly when some class on the parent chain has no viewset |
| `Links.ResolveFollowsWalk` | pinax/api/resource.py:120-134 | along a walk that succeeds level by level, resolution ends at the walk's last object; with distinct lookup fields the map has one entry per level, root first |
| `Links.ResolveHasWalk` | pinax/api/resource.py:120-134 | a successful resolution always followed such a walk, ending where the resolution ended |
| `Links.SelfLinkOfWalk` | pinax/api/resource.py:116-141 | the link is the reversed `<base name>-detail` route with the walk's lookup map, made absolute exactly when a request is given |
| `Includes.SplitPath` | pinax/api/resource.py:176-179 | the remainder is smaller than the path, so the recursion ends |
| `Includes.SplitAtFirstDot` | pinax/api/resource.py:176-179 | the head holds no "."; with a "." the path is head, ".", remainder; without one the head is the path and the remainder is `[]` |
| `Includes.ResolveInclude` | pinax/api/resource.py:175-185 | a call only ever appends to the include set; its additions are stated by `Includes.AddsHeadMembers` and `Includes.ResolveIncludeAppends` |
| `Includes.UndeclaredHeadFails` | pinax/api/resource.py:180-181 | a head that is not a declared relationship fails with `SerializationError` naming it |
| `Includes.ResolveIncludeAppends` | pinax/api/resource.py:175-185 | a call's additions and its failure do not depend on what was added before it |
| `Includes.IncludeEachAppends` | pinax/api/resource.py:183-185 | each object of the head is added after a repeat of the remainder's additions on the same resource |
| `Includes.AddsHeadMembers` | pinax/api/resource.py:182-185 | on success the head's objects are added in collection order, each right after the remainder's additions |
| `Includes.DotlessPathFailsOnObjects` | pinax/api/resource.py:177-184 | a path without "." fails with `AttributeError` once its collection has an object, and adds nothing when the collection is empty |
| `Serializer.ReadAttributes` | pinax/api/resource.py:144-146 | reading the declared attributes succeeds exactly when each is present; otherwise `AttributeError` names a missing one |
| `Serializer.ReadAttributesFailsAtFirst` | pinax/api/resource.py:145-146 | the `AttributeError` names the first declared attribute the object lacks |
| `Serializer.ReadAttributesGets` | pinax/api/resource.py:144-146 | each declared attribute maps to its field's value, and nothing else is added |
| `Serializer.AttributesInDeclaredOrder` | pinax/api/resource.py:144-146 | with distinct names, the attribute map is exactly the declared attributes in declared order |
| `Serializer.RelationshipEntry` | pinax/api/resource.py:149-160 | a collection yields a list and a to-one a single identifier or null; the contents are stated by `Serializer.RelationshipEntryShape` |
| `Serializer.RelationshipEntryShape` | pinax/api/resource.py:149-160 | a collection gives the identifiers of its objects in collection order; a to-one gives the related identifier or null, and fails on anything else |
| `Serializer.ReadRelationships` | pinax/api/resource.py:147-160 | the relationship map is empty exactly when nothing is declared, and success means every entry succeeded |
| `Serializer.RelationshipsInDeclaredOrder` | pinax/api/resource.py:147-160 | the relationship map is exactly one entry per declared relationship, in declared order |
| `Serializer.IncludeAll` | pinax/api/resource.py:161-163 | running the include paths only ever adds to the include set |
| `Serializer.IncludeAllAppends` | pinax/api/resource.py:161-163 | the include set gains, after what it held, each path's own `resolve_include` additions in path order, and the first failing path's error is returned |
| `Serializer.Serializable` | pinax/api/resource.py:143-172 | the type and id are the resource identifier; declared attributes read back as `getattr` reads them on the object, and no other key exists; `relationships` is present iff a relationship is declared; `links` is present iff a viewset is bound and is then the self link; the include set keeps its paths and grows; a missing declared attribute fails with `AttributeError` |
| `Serializer.SerializedInDeclaredOrder` | pinax/api/resource.py:143-172 | the attribute map and the relationships map list exactly the declared entries, in declared order |
| `Scenarios.PopulatedColumns` | pinax/api/resource.py:36-41 | on the object a create payload builds, each declared column reads as its payload value, or as the fresh object's `None` when the payload left it out |
| `Scenarios.SerializedColumns` | pinax/api/resource.py:143-172 | a class of plain columns serializes exactly its declared attributes, in declared order, with what `getattr` reads |
| `Scenarios.AttributesRoundTrip` | pinax/api/resource.py:36-41 | every declared attribute comes back from `serializable` in declared order, with its payload value or `None` when the payload left it out; a payload sending all of them comes back unchanged; the id is "None". It covers only classes whose declared attributes are columns stored under their own names, with no relationships and no viewset (`Scenarios.PlainColumns`) |
| `Scenarios.FreshToOneIsNull` | pinax/api/resource.py:156-160 | a post created without an author serializes its title and an author of null |
| `Scenarios.MissingTagsMessage` | pinax/api/resource.py:61-78 | requesting tags "9", "1", "3" when only "1" exists gives the error listing "3" and "9" in that order |
| `Scenarios.TagsMissing` | pinax/api/resource.py:71-76 | of those ids the missing ones, sorted, are "3" then "9" |
| `Scenarios.MissingAuthorMessage` | pinax/api/resource.py:46-55 | an author id that is not stored fails with the to-one message for that id, keyed "author" |
| `Scenarios.RelationAttributesRefused` | pinax/api/resource.py:39-41 | a payload attribute naming a reverse relation fails with `AttributeError` on `attname`; one naming a many-to-many fails with `ValueError` on a fresh object and is taken on a saved one |
| `Scenarios.ToOneOverManyToManyFails` | pinax/api/resource.py:47-56 | a to-one relationship over a many-to-many field fails after its lookup, with `ValueError` or `TypeError` by whether the object is saved |
| `Scenarios.UnknownIncludeMessage` | pinax/api/resource.py:180-181 | including "ghost" on a resource without that relationship fails with `SerializationError` |
| `Scenarios.NestedLinkKwargs` | pinax/api/resource.py:120-138 | a two-level chain gives the map `entry=5, post=8`, root first |
| `Scenarios.SharedLookupCollapses` | pinax/api/resource.py:129-133 | two levels with the lookup field "post" give the single entry `post=8`, the deeper level's key |

## Left out

- `ResourceIterable` and `from_queryset` (lines 13-33) are queryset plumbing. They are not part of this model.
- `Resource.__init__` is only the pairing `Resource(cls, obj)`.
- `create` and `update` model only the dispatch. `full_clean()` and `save()` are one `persist` function passed in, and the create/update keyword arguments are ignored.
- Model metadata is an abstract map from field name to field (`attname` and kind). It replaces Django's `_meta.get_field`, `related_objects` and `get_accessor_name`.
- Payload ids and stored keys have one string type. The source's comparison of string ids with integer `id` attributes is not modelled.
- `Resource.id` is not defined in resource.py. The model takes it to be the object's primary key.
- The database order of `filter(pk__in=given)` is not known. The fetched objects are taken in sorted id order.
- `reverse` and `request.build_absolute_uri` are function parameters and are not interpreted.
- `included.add` and any deduplication belong to the include-set class, which is not in this model. The model records every resource passed to `add`, in order.
- Django's refusal to add to the collection of an unsaved parent is not modelled. `Populator.SaveRelationships` applies the write whenever the accessor holds a collection.
- Python exceptions abort mid-loop after partial mutation. The model returns only the error. It drops the partly mutated object, and it drops the resources that `included.add` already put into the caller's include set before a later path or object failed.
- Viewset parent chains are finite, because a viewset holds its parent class as a value. Cyclic bindings cannot be expressed.
- A payload identifier without an "id" key (`KeyError` in `map(itemgetter("id"), ...)`) is not modelled. A collection's linkage is a list of ids.
- pinax/api/tests/test_resources.py is end-to-end HTTP testing. It is not part of this model.
- pinax/api/__init__.py is only re-exports. It is not part of this model.
- `Serializer.Serializable`: the only error it states is a missing declared attribute. A failing relationship read, include path or self link propagates unchanged; that is evident from the body but not stated in the contract.
- `Links.SelfLinkOfWalk`: the lookup map is stated only for distinct lookup fields. With a repeated field the later level overwrites the entry in place, and that case is shown only by `Scenarios.SharedLookupCollapses`.
- `Populator.Populate`: on success it states that relationships are declared. The effect of the relationships is stated by `Populator.LinkRelationshipsStoresToOne`, `Populator.LinkRelationshipsFailsAt` and `Populator.LastCollectionWins`, not restated here.
- A fresh `cls.model()` holds `None` in every column and forward key. A field's declared default (such as `""` for a non-null text column) is not modelled.
- A forward key's name and its storage attribute are unrelated entries of an object. Django's descriptor ties them together; the model does not. So the related object that `populate` stores at the `attname` (such as `author_id`) is not what `serializable` reads under the relationship's name.
- The key is held apart from the fields. `getattr(obj, "pk")` reads it, but a column that stores the key under its own `attname` (such as `id`) is not tied to it, and a payload write to that column does not change the key. Fields named or stored as "pk", which Django rejects, are excluded by `Domain.NoPkField` where a lemma needs it.
- `Populator.WriteAttributes`: a payload attribute naming a many-to-many field on a saved object replaces that relation in the database at once through the descriptor. The model has no database behind the object, so it stores the payload value under the field's `attname` instead.

=== FILE: dicts.dfy ===
/**
 Python dictionaries with string keys, which remember insertion order: the
 payload's `attributes` and `relationships`, a resource class's declared
 `relationships`, and the maps the engine builds (`attributes`,
 `relationships`, the `kwargs` handed to URL reversal).
 */
module Dicts {
  import opened Outcomes

  /** Entries in insertion order. */
  type Dict<V> = seq<(string, V)>

  /** The keys in insertion order (`list(d)`). */
  function Keys<V>(d: Dict<V>): (ks: seq<string>)
    ensures |ks| == |d|
    ensures forall i :: 0 <= i < |d| ==> ks[i] == d[i].0
  {
    seq(|d|, i requires 0 <= i < |d| => d[i].0)
  }

  /** No key occurs twice, as in every Python dict. */
  predicate UniqueKeys<V>(d: Dict<V>)
  {
    forall i, j :: 0 <= i < j < |d| ==> d[i].0 != d[j].0
  }

  /** `d.get(k)`. */
  function Get<V>(d: Dict<V>, k: string): (r: Option<V>)
    ensures r.Some? <==> k in Keys(d)
    decreases |d|
  {
    if |d| == 0 then None
    else if d[0].0 == k then Some(d[0].1)
    else
      assert Keys(d) == [d[0].0] + Keys(d[1..]);
      Get(d[1..], k)
  }

  /** `d[k] = v`: an existing key keeps its position, a new key goes last. */
  function Put<V>(d: Dict<V>, k: string, v: V): (r: Dict<V>)
    ensures Get(r, k) == Some(v)
    decreases |d|
  {
    if |d| == 0 then [(k, v)]
    else if d[0].0 == k then
      GetCons((k, v), d[1..]);
      [(k, v)] + d[1..]
    else
      var t := Put(d[1..], k, v);
      GetCons(d[0], t);
      [d[0]] + t
  }

  /** An existing key keeps its position; a new key goes last. */
  lemma {:induction false} PutKeys<V>(d: Dict<V>, k: string, v: V)
    ensures k in Keys(d) ==> Keys(Put(d, k, v)) == Keys(d)
    ensures k !in Keys(d) ==> Keys(Put(d, k, v)) == Keys(d) + [k]
    decreases |d|
  {
    if |d| > 0 {
      KeysCons(d[0], d[1..]);
      assert [d[0]] + d[1..] == d;
      if d[0].0 == k {
        KeysCons((k, v), d[1..]);
      } else {
        PutKeys(d[1..], k, v);
        KeysCons(d[0], Put(d[1..], k, v));
      }
    }
  }

  /** Assignment leaves every other key's value as it was. */
  lemma {:induction false} PutOthers<V>(d: Dict<V>, k: string, v: V)
    ensures forall k' :: k' != k ==> Get(Put(d, k, v), k') == Get(d, k')
    decreases |d|
  {
    if |d| > 0 {
      if d[0].0 == k {
        GetCons((k, v), d[1..]);
      } else {
        PutOthers(d[1..], k, v);
        GetCons(d[0], Put(d[1..], k, v));
      }
    }
  }

  /** Assignment keeps a dict's keys unique. */
  lemma PutKeepsUnique<V>(d: Dict<V>, k: string, v: V)
    requires UniqueKeys(d)
    ensures UniqueKeys(Put(d, k, v))
  {
    var r := Put(d, k, v);
    PutKeys(d, k, v);
    var ks := Keys(r);
    assert forall i, j :: 0 <= i < j < |d| ==> Keys(d)[i] != Keys(d)[j];
    assert forall i, j :: 0 <= i < j < |ks| ==> ks[i] != ks[j];
  }

  /** An entry of a dict with unique keys is what `Get` finds. */
  lemma {:induction false} GetEntry<V>(d: Dict<V>, i: int)
    requires UniqueKeys(d) && 0 <= i < |d|
    ensures Get(d, d[i].0) == Some(d[i].1)
    decreases |d|
  {
    if i > 0 {
      GetEntry(d[1..], i - 1);
    }
  }

  /** Assigning a key the dict does not have appends one entry. */
  lemma {:induction false} PutNew<V>(d: Dict<V>, k: string, v: V)
    requires k !in Keys(d)
    ensures Put(d, k, v) == d + [(k, v)]
    decreases |d|
  {
    if |d| > 0 {
      KeysCons(d[0], d[1..]);
      PutNew(d[1..], k, v);
      AppendAssoc([d[0]], d[1..], [(k, v)]);
    }
  }

  /** The keys of a dict with one more entry in front. */
  lemma KeysCons<V>(e: (string, V), d: Dict<V>)
    ensures Keys([e] + d) == [e.0] + Keys(d)
  {
  }

  /** Looking up in a dict with one more entry in front. */
  lemma GetCons<V>(e: (string, V), d: Dict<V>)
    ensures forall k :: Get([e] + d, k) == if e.0 == k then Some(e.1) else Get(d, k)
  {
    assert ([e] + d)[1..] == d;
  }

  /** Concatenation regroups freely; stated once so callers need not re-derive it. */
  lemma AppendAssoc<T>(a: seq<T>, b: seq<T>, c: seq<T>)
    ensures a + b + c == a + (b + c)
  {
  }
}

=== FILE: domain.dfy ===
/**
 The abstract world the resource engine works over: domain objects with a
 primary key and named fields, the model metadata (`_meta`) that maps a field
 name to its storage attribute and relation kind, the object store, and the
 resource classes (`api_type`, `attributes`, `relationships`, `bound_viewset`).
 */
module Domain {
  import opened Outcomes
  import opened Dicts

  /** Primary keys, payload ids and stringified ids share one type. */
  type Id = string

  /** What an object field holds. */
  datatype Value =
      /** Python `None`. */
    | NoneValue
      /** A JSON scalar as written in the payload or read from a column. */
    | Plain(json: string)
      /** A related object (a to-one relation). */
    | Ref(target: Obj)
      /** A related manager whose `.all()` yields these objects in order. */
    | Coll(members: seq<Obj>)

  /**
   The deferred `save_relationships` write: add `targets` to the collection
   reached through `accessor` on the parent object.
   */
  datatype DeferredWrite = DeferredWrite(accessor: string, targets: seq<Obj>)

  /** A domain object: its primary key (`None` until saved), fields, and attached deferred write. */
  datatype Obj = Obj(pk: Option<Id>, fields: map<string, Value>, saveRelationships: Option<DeferredWrite>)

  /** How a model field relates to other models. */
  datatype FieldKind =
    | Column
    | ForeignKey(to: string)
    | ManyToMany(to: string)
      /** A reverse relation (in `_meta.related_objects`): the model holding the key, and the accessor name. */
    | Reverse(from: string, accessor: string)

  /** A model field: its name, the attribute it is stored under (`attname`), and its kind. */
  datatype Field = Field(name: string, attname: string, kind: FieldKind)

  /** Model metadata: the fields `_meta.get_field` can find. */
  datatype Model = Model(fields: map<string, Field>)

  /** The objects of one model, by primary key. */
  type Table = map<Id, Obj>

  /** The objects of every model, by model name. */
  type Store = map<string, Table>

  /** A declared relationship: the target resource's `api_type`, whether it is a collection, and `attr`. */
  datatype Relationship = Relationship(targetType: string, collection: bool, attr: Option<string>)

  /** A viewset binding: the parent resource class, the URL lookup field, and the route base name. */
  datatype Viewset = Viewset(parent: Option<ResourceClass>, lookupField: string, baseName: string)

  /** A resource class. */
  datatype ResourceClass = ResourceClass(
    apiType: string,
    model: Model,
    attributes: seq<string>,
    relationships: Dict<Relationship>,
    boundViewset: Option<Viewset>)

  /** A resource class bound to one domain object (`cls(obj)`). */
  datatype Resource = Resource(cls: ResourceClass, obj: Obj)

  /** A related object wrapped in the resource class named by a relationship (`rel.resource_class(obj)`). */
  datatype Related = Related(apiType: string, obj: Obj)

  /** `Model._default_manager` of the named model; an unknown model has no objects. */
  function TableOf(store: Store, model: string): (t: Table)
    ensures model in store ==> t == store[model]
    ensures model !in store ==> t == map[]
  {
    if model in store then store[model] else map[]
  }

  /** `Model._meta.get_field(name)`. */
  function GetField(m: Model, name: string): (r: Result<Field>)
    ensures r.Ok? <==> name in m.fields
    ensures r.Ok? ==> r.value == m.fields[name]
    ensures r.Err? ==> r.error == FieldDoesNotExist(name)
  {
    if name in m.fields then Ok(m.fields[name]) else Err(FieldDoesNotExist(name))
  }

  /** What the `pk` property reads: the key, or `None` before the first save. */
  function PkValue(pk: Option<Id>): Value
  {
    if pk.Some? then Plain(pk.value) else NoneValue
  }

  /**
   The names `getattr` can read on an object: the `pk` property, which every
   model instance has, and the stored fields. Django reserves "pk", so no
   field is named or stored under it.
   */
  predicate HasAttr(obj: Obj, name: string)
  {
    name == "pk" || name in obj.fields
  }

  /** The value `getattr(obj, name)` reads for a readable name. */
  function Attr(obj: Obj, name: string): Value
    requires HasAttr(obj, name)
  {
    if name == "pk" then PkValue(obj.pk) else obj.fields[name]
  }

  /** `getattr(obj, name)`. */
  function GetAttr(obj: Obj, name: string): (r: Result<Value>)
    ensures r.Ok? <==> HasAttr(obj, name)
    ensures r.Ok? ==> r.value == Attr(obj, name)
    ensures r.Err? ==> r.error == AttributeError(name)
  {
    if HasAttr(obj, name) then Ok(Attr(obj, name)) else Err(AttributeError(name))
  }

  /** No two fields of a model share a storage attribute (Django refuses such models). */
  predicate DistinctAttnames(m: Model)
  {
    forall a, b :: a in m.fields && b in m.fields && a != b ==> m.fields[a].attname != m.fields[b].attname
  }

  /** No field is named or stored as "pk", a name Django reserves for the key. */
  predicate NoPkField(m: Model)
  {
    "pk" !in m.fields && forall f :: f in m.fields ==> m.fields[f].attname != "pk"
  }
}

=== FILE: identity.dfy ===
/**
 `Resource.get_identifier` and `Resource.save` (with `create` / `update`).
 The resource's `id` is its object's primary key; persistence (`full_clean()`
 and `save()` on the object) is a collaborator passed in as a function.
 */
module Identity {
  import opened Outcomes
  import opened Domain

  /** A resource identifier object `{"type": ..., "id": ...}`. */
  datatype Identifier = Identifier(typ: string, id: string)

  /** Python's `str(pk)`: an unsaved object's `None` prints as "None". */
  function IdString(pk: Option<Id>): string
  {
    match pk
    case Some(id) => id
    case None => "None"
  }

  /** The identifier of `obj` seen through a resource class with the given `api_type`. */
  function IdentifierOf(apiType: string, obj: Obj): Identifier
  {
    Identifier(apiType, IdString(obj.pk))
  }

  /** `Resource.get_identifier`. */
  function GetIdentifier(r: Resource): Identifier
  {
    IdentifierOf(r.cls.apiType, r.obj)
  }

  /**
   The identifier is a function of the resource's type and the object's key
   alone: other fields, the deferred write and the rest of the class play no
   part, so repeated calls on one object agree.
   */
  lemma IdentifierStable(r1: Resource, r2: Resource)
    requires r1.cls.apiType == r2.cls.apiType && r1.obj.pk == r2.obj.pk
    ensures GetIdentifier(r1) == GetIdentifier(r2)
    ensures GetIdentifier(r1).typ == r1.cls.apiType
  {
  }

  /**
   Saved objects of one type have equal identifiers exactly when their keys are
   equal; every unsaved object carries the id "None".
   */
  lemma IdentifierSeparatesSaved(r1: Resource, r2: Resource)
    requires r1.obj.pk.Some? && r2.obj.pk.Some?
    ensures GetIdentifier(r1) == GetIdentifier(r2) <==> r1.cls.apiType == r2.cls.apiType && r1.obj.pk == r2.obj.pk
  {
  }

  lemma UnsavedIdentifier(r: Resource)
    requires r.obj.pk.None?
    ensures GetIdentifier(r) == Identifier(r.cls.apiType, "None")
  {
  }

  /** Which of `create` and `update` ran. */
  datatype SavePath = Created | Updated

  /** `Resource.create`: validate and save the object, return it. */
  function Create(r: Resource, persist: Obj -> Result<Obj>): Result<Obj>
  {
    persist(r.obj)
  }

  /** `Resource.update`: validate and save the object, return it. */
  function Update(r: Resource, persist: Obj -> Result<Obj>): Result<Obj>
  {
    persist(r.obj)
  }

  /**
   `Resource.save`: an object without a primary key is created, any other is
   updated; exactly one of the two runs, and the resource is rebound to the
   object it returns.
   */
  function Save(r: Resource, persist: Obj -> Result<Obj>): (out: Result<(SavePath, Resource)>)
    ensures out.Ok? <==> persist(r.obj).Ok?
    ensures out.Ok? ==> (out.value.0 == Created <==> r.obj.pk.None?)
    ensures out.Ok? ==> out.value.1 == Resource(r.cls, persist(r.obj).value)
    ensures out.Err? ==> out.error == persist(r.obj).error
  {
    if r.obj.pk.None? then
      var o :- Create(r, persist);
      Ok((Created, Resource(r.cls, o)))
    else
      var o :- Update(r, persist);
      Ok((Updated, Resource(r.cls, o)))
  }

  /**
   When persisting assigns a primary key, a created resource is updated, not
   created again, by its next save.
   */
  lemma SaveCreatesOnce(r: Resource, persist: Obj -> Result<Obj>)
    requires forall o :: persist(o).Ok? ==> persist(o).value.pk.Some?
    requires Save(r, persist).Ok?
    ensures var again := Save(Save(r, persist).value.1, persist);
            again.Ok? ==> again.value.0 == Updated
  {
  }
}

=== FILE: include.dfy ===
/**
 The module function `resolve_include(resource, path, included)`, as written:
 the path is split at its first ".", the head must be a declared
 relationship, and for every object of the head's collection the function
 first calls itself on the SAME resource with the remainder and then adds the
 object, wrapped in the relationship's resource class. A path without "."
 leaves the remainder as the empty list `[]`, and a call on that list fails at
 `path.split` with an `AttributeError`. The include set's own bookkeeping is
 not modelled: `included` is the sequence of resources passed to `add`.
 */
module Includes {
  import opened Outcomes
  import opened Dicts
  import opened Domain

  /** The `path` argument: a string, or the list `[]` left by a path without ".". */
  datatype IncludePath = PathStr(s: string) | PathList

  /** A measure that shrinks from a path to its remainder. */
  function PathSize(p: IncludePath): nat
  {
    match p
    case PathStr(s) => |s| + 1
    case PathList => 0
  }

  /** The position of the first `c` in `s`. */
  function IndexOf(s: string, c: char): (r: Option<nat>)
    ensures r.None? <==> c !in s
    ensures r.Some? ==> r.value < |s| && s[r.value] == c && c !in s[..r.value]
    decreases |s|
  {
    if |s| == 0 then None
    else if s[0] == c then Some(0)
    else
      var r := IndexOf(s[1..], c);
      if r.None? then None
      else
        assert s[..r.value + 1] == [s[0]] + s[1..][..r.value];
        Some(r.value + 1)
  }

  /**
   `head, rest = path.split(".", 1)`, falling back to `head, rest = path, []`
   when there is no ".".
   */
  function SplitPath(s: string): (r: (string, IncludePath))
    ensures PathSize(r.1) < PathSize(PathStr(s))
  {
    match IndexOf(s, '.')
    case None => (s, PathList)
    case Some(i) => (s[..i], PathStr(s[i + 1..]))
  }

  /**
   The split is at the FIRST ".": the head holds no ".", and it is followed
   by "." and the remainder; without a "." the head is the whole path and the
   remainder the empty list.
   */
  lemma SplitAtFirstDot(s: string)
    ensures var (head, rest) := SplitPath(s);
            && '.' !in head
            && (rest.PathList? <==> '.' !in s)
            && (rest.PathList? ==> head == s)
            && (rest.PathStr? ==> head + "." + rest.s == s)
  {
    var i := IndexOf(s, '.');
    if i.Some? {
      assert s == s[..i.value] + "." + s[i.value + 1..];
    }
  }

  /** `getattr(resource.obj, head).all()`: only a related manager has `.all()`. */
  function Members(obj: Obj, name: string): (r: Result<seq<Obj>>)
    ensures r.Ok? <==> HasAttr(obj, name) && Attr(obj, name).Coll?
    ensures r.Ok? ==> r.value == Attr(obj, name).members
  {
    var v :- GetAttr(obj, name);
    if v.Coll? then Ok(v.members) else Err(AttributeError("all"))
  }

  /** The message of an undeclared relationship in an include path. */
  function NotIncludable(head: string): string
  {
    "'" + head + "' is not a valid relationship to include"
  }

  /** `resolve_include(resource, path, included)`; `added` is what has been added so far. */
  function ResolveInclude(res: Resource, path: IncludePath, added: seq<Related>): (r: Result<seq<Related>>)
    ensures r.Ok? ==> added <= r.value
    decreases PathSize(path), 0
  {
    match path
    case PathList => Err(AttributeError("split"))
    case PathStr(s) =>
      var (head, rest) := SplitPath(s);
      match Get(res.cls.relationships, head)
      case None => Err(SerializationError(NotIncludable(head)))
      case Some(rel) =>
        var members :- Members(res.obj, head);
        IncludeEach(res, rest, rel, members, added)
  }

  /** The loop over the head's objects: recurse on the remainder, then add the object. */
  function IncludeEach(res: Resource, rest: IncludePath, rel: Relationship, members: seq<Obj>, added: seq<Related>): (r: Result<seq<Related>>)
    ensures r.Ok? ==> added <= r.value
    decreases PathSize(rest), 1, |members|
  {
    if |members| == 0 then Ok(added)
    else
      var afterRest :- ResolveInclude(res, rest, added);
      IncludeEach(res, rest, rel, members[1..], afterRest + [Related(rel.targetType, members[0])])
  }

  // ---------------------------------------------------------------- properties

  /** A head that is not a declared relationship fails with `SerializationError` naming it. */
  lemma UndeclaredHeadFails(res: Resource, s: string, added: seq<Related>)
    requires SplitPath(s).0 !in Keys(res.cls.relationships)
    ensures ResolveInclude(res, PathStr(s), added) == Err(SerializationError(NotIncludable(SplitPath(s).0)))
  {
  }

  /** Repeating `xs` once before each member: what the loop adds on the same resource. */
  function Interleave(xs: seq<Related>, targetType: string, members: seq<Obj>): (r: seq<Related>)
    ensures |r| == |members| * (|xs| + 1)
    decreases |members|
  {
    if |members| == 0 then []
    else xs + [Related(targetType, members[0])] + Interleave(xs, targetType, members[1..])
  }

  /**
   The additions of a call do not depend on what was added before it: the
   result is the earlier additions followed by the call's own, and the call
   fails or succeeds regardless of them.
   */
  lemma {:induction false} ResolveIncludeAppends(res: Resource, path: IncludePath, added: seq<Related>)
    ensures ResolveInclude(res, path, added).Ok? <==> ResolveInclude(res, path, []).Ok?
    ensures ResolveInclude(res, path, added).Ok? ==>
              ResolveInclude(res, path, added).value == added + ResolveInclude(res, path, []).value
    ensures ResolveInclude(res, path, added).Err? ==>
              ResolveInclude(res, path, added).error == ResolveInclude(res, path, []).error
    decreases PathSize(path), 0
  {
    match path
    case PathList =>
    case PathStr(s) =>
      var (head, rest) := SplitPath(s);
      match Get(res.cls.relationships, head)
      case None =>
      case Some(rel) =>
        var members := Members(res.obj, head);
        if members.Ok? {
          IncludeEachAppends(res, rest, rel, members.value, added);
          IncludeEachAppends(res, rest, rel, members.value, []);
        }
  }

  /**
   Because every iteration recurses on the same resource and remainder, the
   loop adds that one call's additions again before each object of the head.
   */
  lemma {:induction false} IncludeEachAppends(res: Resource, rest: IncludePath, rel: Relationship, members: seq<Obj>, added: seq<Related>)
    ensures |members| > 0 ==>
              (IncludeEach(res, rest, rel, members, added).Ok? <==> ResolveInclude(res, rest, []).Ok?)
    ensures IncludeEach(res, rest, rel, members, added).Ok? ==>
              IncludeEach(res, rest, rel, members, added).value
                == added + Interleave(if |members| == 0 then [] else ResolveInclude(res, rest, []).value, rel.targetType, members)
    ensures IncludeEach(res, rest, rel, members, added).Err? ==>
              IncludeEach(res, rest, rel, members, added) == ResolveInclude(res, rest, [])
    decreases PathSize(rest), 1, |members|
  {
    if |members| > 0 {
      ResolveIncludeAppends(res, rest, added);
      var sub := ResolveInclude(res, rest, []);
      if sub.Ok? {
        var next := added + sub.value + [Related(rel.targetType, members[0])];
        IncludeEachAppends(res, rest, rel, members[1..], next);
        if |members| > 1 {
          ResolveIncludeAppends(res, rest, next);
        }
      }
    }
  }

  /**
   On success, a call on a declared head adds each of the head's objects, in
   collection order, each right after the remainder's additions.
   */
  lemma AddsHeadMembers(res: Resource, s: string, added: seq<Related>)
    requires ResolveInclude(res, PathStr(s), added).Ok?
    ensures var (head, rest) := SplitPath(s);
            && Get(res.cls.relationships, head).Some?
            && Members(res.obj, head).Ok?
            && var members := Members(res.obj, head).value;
            && (|members| > 0 ==> ResolveInclude(res, rest, []).Ok?)
            && ResolveInclude(res, PathStr(s), added).value
                 == added + Interleave(if |members| == 0 then [] else ResolveInclude(res, rest, []).value,
                                       Get(res.cls.relationships, head).value.targetType, members)
  {
    var (head, rest) := SplitPath(s);
    var rel := Get(res.cls.relationships, head).value;
    IncludeEachAppends(res, rest, rel, Members(res.obj, head).value, added);
  }

  /**
   A path without "." fails on the first object of its collection, when the
   recursive call reaches `[].split`; it succeeds, adding nothing, only when
   the collection is empty.
   */
  lemma {:induction false} DotlessPathFailsOnObjects(res: Resource, s: string, added: seq<Related>)
    requires '.' !in s && s in Keys(res.cls.relationships) && Members(res.obj, s).Ok?
    ensures |Members(res.obj, s).value| > 0 ==> ResolveInclude(res, PathStr(s), added) == Err(AttributeError("split"))
    ensures |Members(res.obj, s).value| == 0 ==> ResolveInclude(res, PathStr(s), added) == Ok(added)
  {
    SplitAtFirstDot(s);
    assert SplitPath(s) == (s, PathList);
    var rel := Get(res.cls.relationships, s).value;
    var members := Members(res.obj, s).value;
    assert ResolveInclude(res, PathStr(s), added) == IncludeEach(res, PathList, rel, members, added);
  }
}

=== FILE: links.dfy ===
/**
 `Resource.get_self_link`: walk the chain of viewset bindings from the
 resource's class up to the root, then, coming back down root first, record
 for every level its URL lookup field and the stringified id of the object
 reached at that level. The lookup map goes to URL reversal (a collaborator),
 and the path is made absolute when a request is given (another collaborator).
 */
module Links {
  import opened Outcomes
  import opened Dicts
  import opened Domain
  import opened Identity

  /** The incoming request; only passed on to `build_absolute_uri`. */
  datatype Request = Request(path: string)

  /** The message raised for a class without a viewset binding. */
  const NotBound := "cannot generate link without being bound to a viewset"

  /** `getattr(obj, field)` followed by reading the result's id: it must be an object. */
  function Deref(obj: Obj, field: string): (r: Result<Obj>)
    ensures r.Ok? <==> HasAttr(obj, field) && Attr(obj, field).Ref?
    ensures r.Ok? ==> r.value == Attr(obj, field).target
  {
    var v :- GetAttr(obj, field);
    if v.Ref? then Ok(v.target) else Err(AttributeError("pk"))
  }

  /**
   The nested `resolve(r)` of `get_self_link`: first the parent levels, then
   this one. Returns the object reached at this level and the lookup map so far.
   */
  function Resolve(c: ResourceClass, leaf: Obj): (r: Result<(Obj, Dict<string>)>)
    ensures r.Ok? ==> c.boundViewset.Some?
    decreases c
  {
    match c.boundViewset
    case None => Err(RuntimeError(NotBound))
    case Some(v) =>
      match v.parent
      case None => Ok((leaf, Put([], v.lookupField, IdString(leaf.pk))))
      case Some(p) =>
        var up :- Resolve(p, leaf);
        var o :- Deref(up.0, v.lookupField);
        Ok((o, Put(up.1, v.lookupField, IdString(o.pk))))
  }

  /** `Resource.get_self_link(request)`, with `reverse` and `build_absolute_uri` as parameters. */
  function GetSelfLink(res: Resource, request: Option<Request>,
                       reverse: (string, Dict<string>) -> string,
                       absolute: (Request, string) -> string): (r: Result<string>)
    ensures !ChainBound(res.cls) ==> r == Err(RuntimeError(NotBound))
    ensures r.Ok? ==> ChainBound(res.cls)
  {
    ResolveNeedsBinding(res.cls, res.obj);
    var walked :- Resolve(res.cls, res.obj);
    var url := reverse(res.cls.boundViewset.value.baseName + "-detail", walked.1);
    if request.Some? then Ok(absolute(request.value, url)) else Ok(url)
  }

  // ---------------------------------------------------------------- the chain, independently

  /** Every class on the parent chain is bound to a viewset. */
  predicate ChainBound(c: ResourceClass)
    decreases c
  {
    match c.boundViewset
    case None => false
    case Some(v) =>
      match v.parent
      case None => true
      case Some(p) => ChainBound(p)
  }

  /** The viewsets of the chain, root first, the class's own last. */
  function Levels(c: ResourceClass): (ls: seq<Viewset>)
    requires ChainBound(c)
    ensures |ls| > 0 && ls[|ls| - 1] == c.boundViewset.value
    decreases c
  {
    var v := c.boundViewset.value;
    match v.parent
    case None => [v]
    case Some(p) => Levels(p) + [v]
  }

  /** The lookup fields of the levels, root first. */
  function LookupFields(levels: seq<Viewset>): (fs: seq<string>)
    ensures |fs| == |levels|
    ensures forall i :: 0 <= i < |levels| ==> fs[i] == levels[i].lookupField
  {
    seq(|levels|, i requires 0 <= i < |levels| => levels[i].lookupField)
  }

  /** No two levels use the same lookup field. */
  predicate DistinctLookups(levels: seq<Viewset>)
  {
    forall i, j :: 0 <= i < j < |levels| ==> levels[i].lookupField != levels[j].lookupField
  }

  /**
   `objs` are the objects of the walk: the root level holds the resource's own
   object, and each deeper level the object its lookup field leads to from
   the level above.
   */
  ghost predicate Walk(levels: seq<Viewset>, leaf: Obj, objs: seq<Obj>)
  {
    && |objs| == |levels| > 0
    && objs[0] == leaf
    && forall i :: 0 < i < |levels| ==> Deref(objs[i - 1], levels[i].lookupField) == Ok(objs[i])
  }

  /** The lookup map the walk should produce: one entry per level, root first. */
  function ExpectedKwargs(levels: seq<Viewset>, objs: seq<Obj>): (kw: Dict<string>)
    requires |objs| == |levels|
    ensures |kw| == |levels|
    ensures forall i :: 0 <= i < |levels| ==> kw[i] == (levels[i].lookupField, IdString(objs[i].pk))
  {
    seq(|levels|, i requires 0 <= i < |levels| => (levels[i].lookupField, IdString(objs[i].pk)))
  }

  /** A missing binding anywhere on the chain is the only source of `RuntimeError`. */
  lemma {:induction false} ResolveNeedsBinding(c: ResourceClass, leaf: Obj)
    ensures !ChainBound(c) <==> Resolve(c, leaf) == Err(RuntimeError(NotBound))
    decreases c
  {
    match c.boundViewset
    case None =>
    case Some(v) =>
      match v.parent
      case None =>
      case Some(p) =>
        ResolveNeedsBinding(p, leaf);
  }

  lemma WalkPrefix(ls: seq<Viewset>, v: Viewset, leaf: Obj, objs: seq<Obj>)
    requires |ls| > 0 && Walk(ls + [v], leaf, objs)
    ensures Walk(ls, leaf, objs[..|ls|])
    ensures Deref(objs[|ls| - 1], v.lookupField) == Ok(objs[|ls|])
  {
    var all := ls + [v];
    assert all[|ls|] == v;
    forall i | 0 < i < |ls| ensures Deref(objs[..|ls|][i - 1], ls[i].lookupField) == Ok(objs[..|ls|][i]) {
      assert all[i] == ls[i];
    }
  }

  lemma DistinctPrefix(ls: seq<Viewset>, v: Viewset)
    requires DistinctLookups(ls + [v])
    ensures DistinctLookups(ls)
    ensures v.lookupField !in LookupFields(ls)
  {
    var all := ls + [v];
    forall i, j | 0 <= i < j < |ls| ensures ls[i].lookupField != ls[j].lookupField {
      assert all[i] == ls[i] && all[j] == ls[j];
    }
    forall i | 0 <= i < |ls| ensures LookupFields(ls)[i] != v.lookupField {
      assert all[i] == ls[i] && all[|ls|] == v;
    }
  }

  /** The expected map of one more level is one more entry, at the end; its keys are the lookup fields. */
  lemma ExpectedKwargsSnoc(ls: seq<Viewset>, v: Viewset, objs: seq<Obj>)
    requires |objs| == |ls| + 1
    ensures Keys(ExpectedKwargs(ls, objs[..|ls|])) == LookupFields(ls)
    ensures ExpectedKwargs(ls + [v], objs)
              == ExpectedKwargs(ls, objs[..|ls|]) + [(v.lookupField, IdString(objs[|ls|].pk))]
  {
  }

  /**
   Along a walk that succeeds level by level, the resolution succeeds, ends at
   the walk's last object, and, when the lookup fields are distinct, builds
   exactly one entry per level in root-to-leaf order.
   */
  lemma {:induction false} ResolveFollowsWalk(c: ResourceClass, leaf: Obj, objs: seq<Obj>)
    requires ChainBound(c) && Walk(Levels(c), leaf, objs)
    ensures Resolve(c, leaf).Ok?
    ensures Resolve(c, leaf).value.0 == objs[|objs| - 1]
    ensures DistinctLookups(Levels(c)) ==> Resolve(c, leaf).value.1 == ExpectedKwargs(Levels(c), objs)
    decreases c
  {
    var v := c.boundViewset.value;
    match v.parent
    case None =>
      PutNew([], v.lookupField, IdString(leaf.pk));
    case Some(p) =>
      var lp := Levels(p);
      var n := |lp|;
      WalkPrefix(lp, v, leaf, objs);
      ResolveFollowsWalk(p, leaf, objs[..n]);
      if DistinctLookups(Levels(c)) {
        DistinctPrefix(lp, v);
        ExpectedKwargsSnoc(lp, v, objs);
        PutNew(Resolve(p, leaf).value.1, v.lookupField, IdString(objs[n].pk));
      }
  }

  /**
   Conversely, a resolution that succeeds followed a walk: the chain is bound
   and every level's lookup field led to an object, the last one being where
   the resolution ended.
   */
  lemma {:induction false} ResolveHasWalk(c: ResourceClass, leaf: Obj)
    requires Resolve(c, leaf).Ok?
    ensures ChainBound(c)
    ensures exists objs :: Walk(Levels(c), leaf, objs) && objs[|objs| - 1] == Resolve(c, leaf).value.0
    decreases c
  {
    ResolveNeedsBinding(c, leaf);
    var v := c.boundViewset.value;
    match v.parent
    case None =>
      assert Walk(Levels(c), leaf, [leaf]);
    case Some(p) =>
      ResolveHasWalk(p, leaf);
      var objs :| Walk(Levels(p), leaf, objs) && objs[|objs| - 1] == Resolve(p, leaf).value.0;
      var o := Resolve(c, leaf).value.0;
      WalkExtend(Levels(p), v, leaf, objs, o);
  }

  lemma WalkExtend(ls: seq<Viewset>, v: Viewset, leaf: Obj, objs: seq<Obj>, o: Obj)
    requires Walk(ls, leaf, objs) && Deref(objs[|objs| - 1], v.lookupField) == Ok(o)
    ensures Walk(ls + [v], leaf, objs + [o])
  {
    var all := ls + [v];
    var os := objs + [o];
    forall i | 0 < i < |all| ensures Deref(os[i - 1], all[i].lookupField) == Ok(os[i]) {
      if i < |ls| {
        assert all[i] == ls[i] && os[i - 1] == objs[i - 1] && os[i] == objs[i];
      } else {
        assert all[i] == v && os[i - 1] == objs[|objs| - 1] && os[i] == o;
      }
    }
  }

  /**
   The self link of a resource whose chain is bound and walkable: the
   reversed `<base name>-detail` route of the resource's own viewset with the
   expected lookup map, made absolute exactly when a request is given.
   */
  lemma SelfLinkOfWalk(res: Resource, request: Option<Request>,
                       reverse: (string, Dict<string>) -> string,
                       absolute: (Request, string) -> string, objs: seq<Obj>)
    requires ChainBound(res.cls) && Walk(Levels(res.cls), res.obj, objs) && DistinctLookups(Levels(res.cls))
    ensures var url := reverse(res.cls.boundViewset.value.baseName + "-detail", ExpectedKwargs(Levels(res.cls), objs));
            GetSelfLink(res, request, reverse, absolute) == Ok(if request.Some? then absolute(request.value, url) else url)
  {
    ResolveFollowsWalk(res.cls, res.obj, objs);
  }
}

=== FILE: outcomes.dfy ===
/**
 Failure-compatible result values standing in for the exceptions raised by the
 resource mapping engine and by the collaborators it calls.
 */
module Outcomes {

  /** Python's `None` / present value. */
  datatype Option<+T> = None | Some(value: T) {

    /** The value when present, otherwise `default` (`x if x is not None else default`). */
    function GetOr(default: T): T {
      match this
      case Some(v) => v
      case None => default
    }
  }

  /** The exceptions the engine raises or lets propagate. */
  datatype Error =
      /** A missing dictionary key: `data["attributes"]`, `cls.relationships[k]`, `v["data"]`. */
    | KeyError(key: string)
      /** `Model._meta.get_field(name)` on an unknown field. */
    | FieldDoesNotExist(field: string)
      /** A missing attribute on an object (`getattr`, `.all()`, `.split`, `f.rel.to`, `f.attname`). */
    | AttributeError(name: string)
      /** Subscripting or iterating a payload value of the wrong JSON shape, or handing a single object to a many-to-many relation. */
    | TypeError
      /** A many-to-many relation used on an object that has no primary key yet. */
    | ValueError
      /** Django's `ValidationError({field: message})`. */
    | ValidationError(field: string, message: string)
      /** `RuntimeError(message)` raised when a link cannot be generated. */
    | RuntimeError(message: string)
      /** The package's own `SerializationError(message)`. */
    | SerializationError(message: string)

  /** Either a value or the exception that aborted the computation. */
  datatype Result<+T> = Ok(value: T) | Err(error: Error) {

    predicate IsFailure() {
      Err?
    }

    function PropagateFailure<U>(): Result<U>
      requires Err?
    {
      Err(error)
    }

    function Extract(): T
      requires Ok?
    {
      value
    }
  }
}

=== FILE: populate.dfy ===
/**
 `Resource.populate`: turn an incoming payload into a domain object. Payload
 attributes are written onto the object's storage attributes; a to-one
 relationship is looked up and stored at once; a collection relationship is
 validated and only attached as the deferred `save_relationships` write, which
 `SaveRelationships` later applies to the saved parent.
 */
module Populator {
  import opened Outcomes
  import opened Dicts
  import opened Text
  import opened Domain

  /** The `data` member of one relationship object in the payload. */
  datatype Linkage =
      /** The relationship object has no "data" key. */
    | NoData
      /** `"data": null`. */
    | NullData
      /** `"data": {"type": ..., "id": id}`. */
    | One(id: Id)
      /** `"data": [{"type": ..., "id": ...}, ...]`. */
    | Many(ids: seq<Id>)

  /** The resource object of a request: its "attributes" and, optionally, "relationships". */
  datatype Payload = Payload(attributes: Option<Dict<Value>>, relationships: Option<Dict<Linkage>>)

  /** The storage attributes of a model's concrete fields: its columns and forward keys. */
  function ConcreteAttnames(m: Model): set<string>
  {
    set f | f in m.fields && (m.fields[f].kind.Column? || m.fields[f].kind.ForeignKey?) :: m.fields[f].attname
  }

  /** The names of a model's forward keys, under which the related object is read. */
  function ForwardKeyNames(m: Model): set<string>
  {
    set f | f in m.fields && m.fields[f].kind.ForeignKey?
  }

  /**
   `cls.model()`: an unsaved object whose concrete fields hold their default,
   taken to be `None`, both under their storage attribute and, for a forward
   key, under the field's name, where the related object (none yet) is read.
   Many-to-many and reverse relations are not stored on it.
   */
  function NewObject(m: Model): Obj
  {
    Obj(None, map a | a in ConcreteAttnames(m) + ForwardKeyNames(m) :: NoneValue, None)
  }

  /** Field `f` has the same presence and value in `a` and `b`. */
  predicate FieldKept(a: Obj, b: Obj, f: string)
  {
    (f in a.fields <==> f in b.fields) && (f in a.fields ==> a.fields[f] == b.fields[f])
  }

  // ---------------------------------------------------------------- attributes

  /** Every payload attribute names a model field. */
  predicate AllFields(m: Model, attrs: Dict<Value>)
  {
    forall i :: 0 <= i < |attrs| ==> attrs[i].0 in m.fields
  }

  /**
   The error of `setattr(obj, f.attname, v)`, if any: a reverse relation has
   no `attname`, and a many-to-many `attname` is the relation's descriptor,
   which refuses an object without a primary key. Columns and forward keys
   take the value.
   */
  function SetAttnameError(f: Field, obj: Obj): Option<Error>
  {
    match f.kind
    case Reverse(_, _) => Some(AttributeError("attname"))
    case ManyToMany(_) => if obj.pk.None? then Some(ValueError) else None
    case _ => None
  }

  /** Payload attribute `k` names a field whose storage attribute `obj` accepts. */
  predicate Writable(m: Model, obj: Obj, k: string)
  {
    k in m.fields && SetAttnameError(m.fields[k], obj).None?
  }

  /** Every payload attribute is writable on `obj`. */
  predicate AllWritable(m: Model, obj: Obj, attrs: Dict<Value>)
  {
    forall i :: 0 <= i < |attrs| ==> Writable(m, obj, attrs[i].0)
  }

  /** The error writing attribute `k` raises: an unknown field, or the refused assignment. */
  function WriteError(m: Model, obj: Obj, k: string): Error
    requires !Writable(m, obj, k)
  {
    if k !in m.fields then FieldDoesNotExist(k) else SetAttnameError(m.fields[k], obj).value
  }

  /** The storage attributes the payload attributes are written to. */
  ghost function AttributeTargets(m: Model, attrs: Dict<Value>): set<string>
    requires AllFields(m, attrs)
  {
    set i | 0 <= i < |attrs| :: m.fields[attrs[i].0].attname
  }

  /** No later payload attribute is written to the same storage attribute as entry `i`. */
  ghost predicate LastWrite(m: Model, attrs: Dict<Value>, i: int)
    requires AllFields(m, attrs) && 0 <= i < |attrs|
  {
    forall j :: i < j < |attrs| ==> m.fields[attrs[j].0].attname != m.fields[attrs[i].0].attname
  }

  /**
   The attribute loop of `populate`: each `(k, v)` is written to the storage
   attribute of field `k`; an unknown field aborts with `FieldDoesNotExist`,
   a field whose storage attribute refuses the value with that error.
   */
  function WriteAttributes(m: Model, obj: Obj, attrs: Dict<Value>): (r: Result<Obj>)
    ensures r.Ok? <==> AllWritable(m, obj, attrs)
    ensures r.Err? ==> exists i :: 0 <= i < |attrs| && !Writable(m, obj, attrs[i].0) && r.error == WriteError(m, obj, attrs[i].0)
    ensures r.Ok? ==> r.value.pk == obj.pk && r.value.saveRelationships == obj.saveRelationships
    decreases |attrs|
  {
    if |attrs| == 0 then Ok(obj)
    else
      var f :- GetField(m, attrs[0].0);
      if SetAttnameError(f, obj).Some? then Err(SetAttnameError(f, obj).value)
      else
        var next := obj.(fields := obj.fields[f.attname := attrs[0].1]);
        var r := WriteAttributes(m, next, attrs[1..]);
        assert forall i :: 1 <= i < |attrs| ==> attrs[1..][i - 1] == attrs[i];
        r
  }

  /**
   The loop stops at the first payload attribute that is not writable: its
   error is the one raised.
   */
  lemma {:induction false} WriteAttributesFailsAtFirst(m: Model, obj: Obj, attrs: Dict<Value>, i: int)
    requires 0 <= i < |attrs| && !Writable(m, obj, attrs[i].0)
    requires forall j :: 0 <= j < i ==> Writable(m, obj, attrs[j].0)
    ensures WriteAttributes(m, obj, attrs) == Err(WriteError(m, obj, attrs[i].0))
    decreases i
  {
    if i > 0 {
      var next := obj.(fields := obj.fields[m.fields[attrs[0].0].attname := attrs[0].1]);
      assert forall j :: 0 <= j < i - 1 ==> attrs[1..][j] == attrs[j + 1];
      WriteAttributesFailsAtFirst(m, next, attrs[1..], i - 1);
    }
  }

  /** The storage attributes of a non-empty payload: the first entry's and the rest's. */
  lemma TargetsCons(m: Model, attrs: Dict<Value>)
    requires |attrs| > 0 && AllFields(m, attrs)
    ensures AllFields(m, attrs[1..])
    ensures AttributeTargets(m, attrs) == {m.fields[attrs[0].0].attname} + AttributeTargets(m, attrs[1..])
  {
    assert forall i :: 1 <= i < |attrs| ==> attrs[1..][i - 1] == attrs[i];
    forall t | t in AttributeTargets(m, attrs) ensures t in {m.fields[attrs[0].0].attname} + AttributeTargets(m, attrs[1..]) {
      var i :| 0 <= i < |attrs| && m.fields[attrs[i].0].attname == t;
      if i > 0 {
        assert attrs[1..][i - 1] == attrs[i];
      }
    }
  }

  /**
   What the attribute loop writes: every field it does not target keeps its
   presence and value, every target is present, and an entry that no later
   entry overwrites is stored.
   */
  lemma {:induction false} WriteAttributesEffect(m: Model, obj: Obj, attrs: Dict<Value>)
    requires WriteAttributes(m, obj, attrs).Ok?
    ensures AllFields(m, attrs)
    ensures var r := WriteAttributes(m, obj, attrs).value;
            forall f :: f !in AttributeTargets(m, attrs) ==> FieldKept(obj, r, f)
    ensures var r := WriteAttributes(m, obj, attrs).value;
            forall i :: 0 <= i < |attrs| ==> m.fields[attrs[i].0].attname in r.fields
    ensures var r := WriteAttributes(m, obj, attrs).value;
            forall i :: 0 <= i < |attrs| && LastWrite(m, attrs, i) ==> r.fields[m.fields[attrs[i].0].attname] == attrs[i].1
    decreases |attrs|
  {
    if |attrs| > 0 {
      var a := m.fields[attrs[0].0].attname;
      var next := obj.(fields := obj.fields[a := attrs[0].1]);
      assert WriteAttributes(m, obj, attrs) == WriteAttributes(m, next, attrs[1..]);
      var r := WriteAttributes(m, obj, attrs).value;
      TargetsCons(m, attrs);
      WriteAttributesEffect(m, next, attrs[1..]);
      assert forall i :: 1 <= i < |attrs| ==> attrs[1..][i - 1] == attrs[i];
      assert a in r.fields by {
        if a !in AttributeTargets(m, attrs[1..]) {
          assert FieldKept(next, r, a);
        } else {
          var j :| 0 <= j < |attrs[1..]| && m.fields[attrs[1..][j].0].attname == a;
        }
      }
      forall i | 0 <= i < |attrs| && LastWrite(m, attrs, i) ensures r.fields[m.fields[attrs[i].0].attname] == attrs[i].1 {
        if i == 0 {
          assert a !in AttributeTargets(m, attrs[1..]) by {
            forall j | 0 <= j < |attrs[1..]| ensures m.fields[attrs[1..][j].0].attname != a {
              assert attrs[1..][j] == attrs[j + 1];
            }
          }
          assert FieldKept(next, r, a);
        } else {
          assert LastWrite(m, attrs[1..], i - 1);
        }
      }
    }
  }

  /** With a well-formed payload and model, every payload attribute ends up stored. */
  lemma AttributesWritten(m: Model, obj: Obj, attrs: Dict<Value>)
    requires UniqueKeys(attrs) && DistinctAttnames(m)
    requires WriteAttributes(m, obj, attrs).Ok?
    ensures var r := WriteAttributes(m, obj, attrs).value;
            forall i :: 0 <= i < |attrs| ==>
              m.fields[attrs[i].0].attname in r.fields && r.fields[m.fields[attrs[i].0].attname] == attrs[i].1
  {
    WriteAttributesEffect(m, obj, attrs);
    forall i | 0 <= i < |attrs| ensures LastWrite(m, attrs, i) {
      forall j | i < j < |attrs| ensures m.fields[attrs[j].0].attname != m.fields[attrs[i].0].attname {
        assert attrs[j].0 != attrs[i].0;
      }
    }
  }

  // ---------------------------------------------------------------- to-one relationships

  /** The model field a relationship is stored under: `rel.attr`, or else the relationship name. */
  function StorageName(rel: Relationship, name: string): string
  {
    rel.attr.GetOr(name)
  }

  /**
   `f.rel.to`: the model a forward relation points at. A column's `rel` is
   `None`, which has no `to`; a reverse relation has no `rel`.
   */
  function ToOneTarget(f: Field): Result<string>
  {
    match f.kind
    case ForeignKey(to) => Ok(to)
    case ManyToMany(to) => Ok(to)
    case Column => Err(AttributeError("to"))
    case Reverse(_, _) => Err(AttributeError("rel"))
  }

  /** `v["data"]["id"]`. */
  function LinkageId(v: Linkage): Result<Id>
  {
    match v
    case NoData => Err(KeyError("data"))
    case One(id) => Ok(id)
    case _ => Err(TypeError)
  }

  /** The message of a missing to-one target. */
  function ToOneMessage(name: string, id: Id): string
  {
    "Relationship \"" + name + "\" object ID " + id + " does not exist"
  }

  /**
   The lookup of the to-one branch: the storage attribute of the
   relationship's field and the object stored under the payload id.
   */
  function LookupToOne(m: Model, store: Store, name: string, rel: Relationship, v: Linkage): (r: Result<(string, Obj)>)
    ensures r.Err? && r.error.ValidationError? ==> LinkageId(v).Ok? && IsInfix(LinkageId(v).value, r.error.message)
  {
    var f :- GetField(m, StorageName(rel, name));
    var to :- ToOneTarget(f);
    var id :- LinkageId(v);
    var table := TableOf(store, to);
    if id in table then
      Ok((f.attname, table[id]))
    else
      InfixAt(id, "Relationship \"" + name + "\" object ID ", " does not exist");
      Err(ValidationError(name, ToOneMessage(name, id)))
  }

  /**
   The error of storing a single looked-up object at the storage attribute of
   field `f`: a many-to-many descriptor refuses an unsaved object and cannot
   iterate a single object.
   */
  function ToOneStoreError(f: Field, obj: Obj): Option<Error>
  {
    if f.kind.ManyToMany? then Some(if obj.pk.None? then ValueError else TypeError) else None
  }

  /** The to-one branch: fetch the target by id and store it on the object. */
  function LinkToOne(m: Model, store: Store, obj: Obj, name: string, rel: Relationship, v: Linkage): (r: Result<Obj>)
    ensures r.Ok? ==> r.value.pk == obj.pk && r.value.saveRelationships == obj.saveRelationships
    ensures r.Ok? ==>
      && GetField(m, StorageName(rel, name)).Ok?
      && var f := m.fields[StorageName(rel, name)];
      && f.kind.ForeignKey? && LinkageId(v).Ok?
      && var table := TableOf(store, f.kind.to);
      && LinkageId(v).value in table
      && r.value.fields == obj.fields[f.attname := Ref(table[LinkageId(v).value])]
    ensures r.Err? && r.error.ValidationError? ==>
      && GetField(m, StorageName(rel, name)).Ok?
      && ToOneTarget(m.fields[StorageName(rel, name)]).Ok? && LinkageId(v).Ok?
      && r.error.field == name
      && IsInfix(LinkageId(v).value, r.error.message)
      && LinkageId(v).value !in TableOf(store, ToOneTarget(m.fields[StorageName(rel, name)]).value)
    ensures GetField(m, StorageName(rel, name)).Ok? && ToOneTarget(m.fields[StorageName(rel, name)]).Ok?
            && LinkageId(v).Ok?
            && LinkageId(v).value !in TableOf(store, ToOneTarget(m.fields[StorageName(rel, name)]).value)
            ==> r.Err? && r.error.ValidationError?
    ensures LookupToOne(m, store, name, rel, v).Ok? && m.fields[StorageName(rel, name)].kind.ManyToMany? ==>
            r == Err(if obj.pk.None? then ValueError else TypeError)
  {
    var target :- LookupToOne(m, store, name, rel, v);
    var f := m.fields[StorageName(rel, name)];
    if ToOneStoreError(f, obj).Some? then Err(ToOneStoreError(f, obj).value)
    else Ok(obj.(fields := obj.fields[target.0 := Ref(target.1)]))
  }

  // ---------------------------------------------------------------- collection relationships

  /**
   The related model and the accessor of a collection field: for a reverse
   relation the model holding the key and its accessor name, for a forward
   relation `f.rel.model` and the field's own name. A column's `rel` is
   `None`, which has no `model`.
   */
  function CollectionTarget(f: Field): Result<(string, string)>
  {
    match f.kind
    case Reverse(from, accessor) => Ok((from, accessor))
    case ForeignKey(to) => Ok((to, f.name))
    case ManyToMany(to) => Ok((to, f.name))
    case Column => Err(AttributeError("model"))
  }

  /** `map(itemgetter("id"), v["data"])`. */
  function LinkageIds(v: Linkage): Result<seq<Id>>
  {
    match v
    case NoData => Err(KeyError("data"))
    case Many(ids) => Ok(ids)
    case _ => Err(TypeError)
  }

  /** The payload ids with no object in the table, in payload order. */
  function Absent(ids: seq<Id>, table: Table): (r: seq<Id>)
    ensures Elems(r) == Elems(ids) - table.Keys
    decreases |ids|
  {
    if |ids| == 0 then []
    else
      assert Elems(ids) == {ids[0]} + Elems(ids[1..]) by {
        assert ids == [ids[0]] + ids[1..];
      }
      var head := if ids[0] in table then [] else [ids[0]];
      var tail := Absent(ids[1..], table);
      assert Elems(head + tail) == Elems(head) + Elems(tail);
      head + tail
  }

  /** The objects stored under the given ids. */
  function Fetch(ids: seq<Id>, table: Table): (r: seq<Obj>)
    requires forall x :: x in ids ==> x in table
    ensures |r| == |ids|
    ensures forall i :: 0 <= i < |ids| ==> r[i] == table[ids[i]]
  {
    seq(|ids|, i requires 0 <= i < |ids| => table[ids[i]])
  }

  /** The message of missing collection targets: the ids, sorted, joined by ", ". */
  function ManyMessage(name: string, missing: seq<Id>): string
  {
    "Relationship \"" + name + "\" object IDs " + Join(missing, ", ") + " do not exist"
  }

  /**
   The collection branch up to the deferred write: `missing = given - found`
   must be empty, otherwise a `ValidationError` lists the missing ids sorted.
   The write adds the found objects (taken in id order) to the collection.
   */
  function CollectionWrite(m: Model, store: Store, name: string, rel: Relationship, v: Linkage): (r: Result<DeferredWrite>)
    ensures r.Ok? ==>
      && LinkageIds(v).Ok? && GetField(m, StorageName(rel, name)).Ok?
      && var target := CollectionTarget(m.fields[StorageName(rel, name)]);
      && target.Ok?
      && var table := TableOf(store, target.value.0);
      && Elems(LinkageIds(v).value) <= table.Keys
      && r.value.accessor == target.value.1
      && |r.value.targets| == |SortUnique(LinkageIds(v).value)|
      && forall i :: 0 <= i < |r.value.targets| ==> r.value.targets[i] == table[SortUnique(LinkageIds(v).value)[i]]
    ensures r.Err? && r.error.ValidationError? ==>
      && LinkageIds(v).Ok? && GetField(m, StorageName(rel, name)).Ok?
      && CollectionTarget(m.fields[StorageName(rel, name)]).Ok?
      && r.error.field == name
      && var table := TableOf(store, CollectionTarget(m.fields[StorageName(rel, name)]).value.0);
      && var missing := Elems(LinkageIds(v).value) - table.Keys;
      && missing != {}
      && r.error.message == ManyMessage(name, SortUnique(Absent(LinkageIds(v).value, table)))
      && forall x :: x in missing ==> IsInfix(x, r.error.message)
    ensures LinkageIds(v).Ok? && GetField(m, StorageName(rel, name)).Ok?
            && CollectionTarget(m.fields[StorageName(rel, name)]).Ok?
            && !(Elems(LinkageIds(v).value) <= TableOf(store, CollectionTarget(m.fields[StorageName(rel, name)]).value.0).Keys)
            ==> r.Err? && r.error.ValidationError?
  {
    var given :- LinkageIds(v);
    var f :- GetField(m, StorageName(rel, name));
    var target :- CollectionTarget(f);
    var table := TableOf(store, target.0);
    var missing := SortUnique(Absent(given, table));
    if |missing| > 0 then
      MissingListed(name, missing);
      Err(ValidationError(name, ManyMessage(name, missing)))
    else
      assert Elems(given) <= table.Keys by {
        assert missing == [];
        forall x | x in Elems(given) ensures x in table.Keys {
          assert x !in Elems(missing);
        }
      }
      var ids := SortUnique(given);
      assert forall x :: x in ids ==> x in table by {
        forall x | x in ids ensures x in table {
          assert x in Elems(ids);
          assert x in Elems(given);
        }
      }
      Ok(DeferredWrite(target.1, Fetch(ids, table)))
  }

  /**
   A validated write holds what `filter(pk__in=given)` finds: each target is
   the stored object of a given id, the stored object of every given id is a
   target, and there is one target per distinct id.
   */
  lemma CollectionWriteFetchesGiven(m: Model, store: Store, name: string, rel: Relationship, v: Linkage)
    requires CollectionWrite(m, store, name, rel, v).Ok?
    ensures var w := CollectionWrite(m, store, name, rel, v).value;
            var given := LinkageIds(v).value;
            var table := TableOf(store, CollectionTarget(m.fields[StorageName(rel, name)]).value.0);
            && (forall o :: o in w.targets <==> exists x :: x in given && x in table && o == table[x])
            && |w.targets| == |Elems(given)|
  {
    var w := CollectionWrite(m, store, name, rel, v).value;
    var given := LinkageIds(v).value;
    var table := TableOf(store, CollectionTarget(m.fields[StorageName(rel, name)]).value.0);
    var ids := SortUnique(given);
    SortedCount(ids);
    forall o | o in w.targets ensures exists x :: x in given && x in table && o == table[x] {
      var k :| 0 <= k < |w.targets| && w.targets[k] == o;
      assert ids[k] in Elems(ids);
    }
    forall x | x in given && x in table ensures table[x] in w.targets {
      assert x in Elems(ids);
      var k :| 0 <= k < |ids| && ids[k] == x;
      assert w.targets[k] == table[x];
    }
  }

  lemma MissingListed(name: string, missing: seq<Id>)
    ensures forall x :: x in Elems(missing) ==> IsInfix(x, ManyMessage(name, missing))
  {
    JoinContainsParts(missing, ", ");
    forall x | x in Elems(missing) ensures IsInfix(x, ManyMessage(name, missing)) {
      var k :| 0 <= k < |missing| && missing[k] == x;
      InfixExtend(x, Join(missing, ", "), "Relationship \"" + name + "\" object IDs ", " do not exist");
    }
  }

  /**
   The outcome of a collection relationship depends on the set of ids the
   payload lists, not on their order or repetition: in particular the error
   message is deterministic.
   */
  lemma CollectionWriteSetDetermined(m: Model, store: Store, name: string, rel: Relationship, ids1: seq<Id>, ids2: seq<Id>)
    requires Elems(ids1) == Elems(ids2)
    ensures CollectionWrite(m, store, name, rel, Many(ids1)) == CollectionWrite(m, store, name, rel, Many(ids2))
  {
    SortedUnique(SortUnique(ids1), SortUnique(ids2));
    var f := GetField(m, StorageName(rel, name));
    if f.Ok? && CollectionTarget(f.value).Ok? {
      var table := TableOf(store, CollectionTarget(f.value).value.0);
      SortedUnique(SortUnique(Absent(ids1, table)), SortUnique(Absent(ids2, table)));
    }
  }

  /** The collection branch: attach the deferred write, replacing any earlier one; no field changes. */
  function LinkCollection(m: Model, store: Store, obj: Obj, name: string, rel: Relationship, v: Linkage): (r: Result<Obj>)
    ensures r.Ok? ==> r.value.fields == obj.fields && r.value.pk == obj.pk
    ensures r.Ok? ==> CollectionWrite(m, store, name, rel, v).Ok?
                      && r.value.saveRelationships == Some(CollectionWrite(m, store, name, rel, v).value)
    ensures r.Err? ==> CollectionWrite(m, store, name, rel, v).Err? && r.error == CollectionWrite(m, store, name, rel, v).error
  {
    var w :- CollectionWrite(m, store, name, rel, v);
    Ok(obj.(saveRelationships := Some(w)))
  }

  // ---------------------------------------------------------------- the relationship loop

  /** The payload relationship `name` is declared as a collection. */
  predicate IsCollection(cls: ResourceClass, name: string)
  {
    Get(cls.relationships, name).Some? && Get(cls.relationships, name).value.collection
  }

  /** One iteration of the relationship loop: `cls.relationships[name]`, then the branch for its kind. */
  function LinkRelationship(cls: ResourceClass, store: Store, obj: Obj, name: string, v: Linkage): (r: Result<Obj>)
    ensures Get(cls.relationships, name).None? ==> r == Err(KeyError(name))
    ensures r.Ok? ==> r.value.pk == obj.pk
    ensures r.Ok? && !IsCollection(cls, name) ==> r.value.saveRelationships == obj.saveRelationships
  {
    match Get(cls.relationships, name)
    case None => Err(KeyError(name))
    case Some(rel) =>
      if !rel.collection then LinkToOne(cls.model, store, obj, name, rel, v)
      else LinkCollection(cls.model, store, obj, name, rel, v)
  }

  /** The storage attributes the to-one relationships of the payload write to. */
  ghost function ToOneTargets(cls: ResourceClass, rels: Dict<Linkage>): set<string>
  {
    set i | 0 <= i < |rels| && ToOneAttname(cls, rels[i].0).Some? :: ToOneAttname(cls, rels[i].0).value
  }

  /** The storage attribute a declared to-one relationship is written to, when its field exists. */
  function ToOneAttname(cls: ResourceClass, name: string): Option<string>
  {
    match Get(cls.relationships, name)
    case None => None
    case Some(rel) =>
      if !rel.collection && StorageName(rel, name) in cls.model.fields
      then Some(cls.model.fields[StorageName(rel, name)].attname)
      else None
  }

  /**
   The relationship loop of `populate`. Every payload relationship must be
   declared; to-one writes touch only their storage attributes; collections
   only replace the deferred write.
   */
  function LinkRelationships(cls: ResourceClass, store: Store, obj: Obj, rels: Dict<Linkage>): (r: Result<Obj>)
    ensures r.Ok? ==> forall i :: 0 <= i < |rels| ==> rels[i].0 in Keys(cls.relationships)
    ensures r.Ok? ==> r.value.pk == obj.pk
    ensures r.Ok? ==> forall f :: f !in ToOneTargets(cls, rels) ==> FieldKept(obj, r.value, f)
    ensures r.Ok? && (forall i :: 0 <= i < |rels| ==> !IsCollection(cls, rels[i].0)) ==>
              r.value.saveRelationships == obj.saveRelationships
    decreases |rels|
  {
    if |rels| == 0 then Ok(obj)
    else
      var next :- LinkRelationship(cls, store, obj, rels[0].0, rels[0].1);
      var r := LinkRelationships(cls, store, next, rels[1..]);
      assert forall i :: 1 <= i < |rels| ==> rels[1..][i - 1] == rels[i];
      assert ToOneTargets(cls, rels[1..]) <= ToOneTargets(cls, rels) by {
        forall t | t in ToOneTargets(cls, rels[1..]) ensures t in ToOneTargets(cls, rels) {
          var i :| 0 <= i < |rels[1..]| && ToOneAttname(cls, rels[1..][i].0).Some?
                   && ToOneAttname(cls, rels[1..][i].0).value == t;
          assert rels[1..][i] == rels[i + 1];
        }
      }
      assert r.Ok? ==> forall f :: f !in ToOneTargets(cls, rels) ==> FieldKept(obj, next, f) by {
        if ToOneAttname(cls, rels[0].0).Some? {
          assert ToOneAttname(cls, rels[0].0).value in ToOneTargets(cls, rels);
        }
      }
      r
  }

  /** The payload relationship `name` is declared as a to-one relationship. */
  predicate IsToOne(cls: ResourceClass, name: string)
  {
    Get(cls.relationships, name).Some? && !Get(cls.relationships, name).value.collection
  }

  /** No later payload relationship is a to-one written to the same storage attribute as entry `i`. */
  ghost predicate NotRewritten(cls: ResourceClass, rels: Dict<Linkage>, i: int)
    requires 0 <= i < |rels|
  {
    forall j :: i < j < |rels| ==> ToOneAttname(cls, rels[j].0) != ToOneAttname(cls, rels[i].0)
  }

  /** Object `o` holds the target the to-one relationship `name` looks up, at its storage attribute. */
  ghost predicate HoldsToOne(cls: ResourceClass, store: Store, o: Obj, name: string, v: Linkage)
    requires IsToOne(cls, name)
  {
    var t := LookupToOne(cls.model, store, name, Get(cls.relationships, name).value, v);
    t.Ok? && t.value.0 in o.fields && o.fields[t.value.0] == Ref(t.value.1)
  }

  /**
   After the loop, every to-one relationship of the payload whose storage
   attribute no later to-one rewrites holds the object it looked up.
   */
  lemma {:induction false} LinkRelationshipsStoresToOne(cls: ResourceClass, store: Store, obj: Obj, rels: Dict<Linkage>)
    requires LinkRelationships(cls, store, obj, rels).Ok?
    ensures forall i :: 0 <= i < |rels| && IsToOne(cls, rels[i].0) && NotRewritten(cls, rels, i) ==>
              HoldsToOne(cls, store, LinkRelationships(cls, store, obj, rels).value, rels[i].0, rels[i].1)
    decreases |rels|
  {
    if |rels| > 0 {
      var r := LinkRelationships(cls, store, obj, rels).value;
      var next := LinkRelationship(cls, store, obj, rels[0].0, rels[0].1).value;
      assert LinkRelationships(cls, store, obj, rels) == LinkRelationships(cls, store, next, rels[1..]);
      LinkRelationshipsStoresToOne(cls, store, next, rels[1..]);
      forall i | 0 <= i < |rels| && IsToOne(cls, rels[i].0) && NotRewritten(cls, rels, i)
        ensures HoldsToOne(cls, store, r, rels[i].0, rels[i].1)
      {
        if i == 0 {
          var t := LookupToOne(cls.model, store, rels[0].0, Get(cls.relationships, rels[0].0).value, rels[0].1);
          assert t.Ok? && next.fields[t.value.0] == Ref(t.value.1);
          assert ToOneAttname(cls, rels[0].0) == Some(t.value.0);
          assert t.value.0 !in ToOneTargets(cls, rels[1..]) by {
            forall j | 0 <= j < |rels[1..]| ensures ToOneAttname(cls, rels[1..][j].0) != Some(t.value.0) {
              assert rels[1..][j] == rels[j + 1];
            }
          }
        } else {
          assert rels[1..][i - 1] == rels[i];
          assert NotRewritten(cls, rels[1..], i - 1) by {
            forall j | i - 1 < j < |rels[1..]| ensures ToOneAttname(cls, rels[1..][j].0) != ToOneAttname(cls, rels[i].0) {
              assert rels[1..][j] == rels[j + 1];
            }
          }
        }
      }
    }
  }

  /**
   The loop stops at the first relationship that fails, after the ones before
   it were applied in order, and returns that relationship's error.
   */
  lemma {:induction false} LinkRelationshipsFailsAt(cls: ResourceClass, store: Store, obj: Obj, rels: Dict<Linkage>, i: int)
    requires 0 <= i < |rels| && LinkRelationships(cls, store, obj, rels[..i]).Ok?
    requires LinkRelationship(cls, store, LinkRelationships(cls, store, obj, rels[..i]).value, rels[i].0, rels[i].1).Err?
    ensures LinkRelationships(cls, store, obj, rels)
              == Err(LinkRelationship(cls, store, LinkRelationships(cls, store, obj, rels[..i]).value, rels[i].0, rels[i].1).error)
    decreases i
  {
    if i > 0 {
      assert rels[..i][0] == rels[0] && rels[..i][1..] == rels[1..][..i - 1];
      var next := LinkRelationship(cls, store, obj, rels[0].0, rels[0].1).value;
      assert LinkRelationships(cls, store, obj, rels[..i]) == LinkRelationships(cls, store, next, rels[1..][..i - 1]);
      assert rels[1..][i - 1] == rels[i];
      LinkRelationshipsFailsAt(cls, store, next, rels[1..], i - 1);
    } else {
      assert rels[..0] == [];
    }
  }

  /**
   Only the deferred write of the LAST collection relationship in the payload
   survives: each one overwrites `obj.save_relationships`.
   */
  lemma {:induction false} LastCollectionWins(cls: ResourceClass, store: Store, obj: Obj, rels: Dict<Linkage>, i: int)
    requires LinkRelationships(cls, store, obj, rels).Ok?
    requires 0 <= i < |rels| && IsCollection(cls, rels[i].0)
    requires forall j :: i < j < |rels| ==> !IsCollection(cls, rels[j].0)
    ensures var rel := Get(cls.relationships, rels[i].0).value;
            var w := CollectionWrite(cls.model, store, rels[i].0, rel, rels[i].1);
            w.Ok? && LinkRelationships(cls, store, obj, rels).value.saveRelationships == Some(w.value)
    decreases |rels|
  {
    var next := LinkRelationship(cls, store, obj, rels[0].0, rels[0].1).value;
    assert LinkRelationships(cls, store, obj, rels) == LinkRelationships(cls, store, next, rels[1..]);
    assert forall j :: 1 <= j < |rels| ==> rels[1..][j - 1] == rels[j];
    if i == 0 {
      var rel := Get(cls.relationships, rels[0].0).value;
      assert next == LinkCollection(cls.model, store, obj, rels[0].0, rel, rels[0].1).value;
      assert forall j :: 0 <= j < |rels[1..]| ==> !IsCollection(cls, rels[1..][j].0);
    } else {
      LastCollectionWins(cls, store, next, rels[1..], i - 1);
    }
  }

  // ---------------------------------------------------------------- populate

  /** `Resource.populate(data, obj)`. */
  function Populate(cls: ResourceClass, store: Store, data: Payload, obj: Option<Obj>): (r: Result<Resource>)
    ensures data.attributes.None? ==> r == Err(KeyError("attributes"))
    ensures r.Ok? ==> r.value.cls == cls
    ensures r.Ok? ==> r.value.obj.pk == (if obj.Some? then obj.value.pk else None)
    ensures r.Ok? && data.relationships.Some? ==>
              forall i :: 0 <= i < |data.relationships.value| ==> data.relationships.value[i].0 in Keys(cls.relationships)
  {
    var start := if obj.None? then NewObject(cls.model) else obj.value;
    var attrs :- if data.attributes.Some? then Ok(data.attributes.value) else Err(KeyError("attributes"));
    var written :- WriteAttributes(cls.model, start, attrs);
    var linked :- LinkRelationships(cls, store, written, data.relationships.GetOr([]));
    Ok(Resource(cls, linked))
  }

  /**
   After a successful populate every payload attribute holds its payload
   value, unless a to-one relationship of the payload is stored at the same
   attribute; every field named by neither keeps its value from the starting
   object (a fresh one exactly when no object was passed).
   */
  lemma PopulateWritesAttributes(cls: ResourceClass, store: Store, data: Payload, obj: Option<Obj>)
    requires Populate(cls, store, data, obj).Ok?
    requires data.attributes.Some? && UniqueKeys(data.attributes.value) && DistinctAttnames(cls.model)
    ensures var attrs := data.attributes.value;
            var rels := data.relationships.GetOr([]);
            var res := Populate(cls, store, data, obj).value.obj;
            && AllFields(cls.model, attrs)
            && (forall i :: 0 <= i < |attrs| && cls.model.fields[attrs[i].0].attname !in ToOneTargets(cls, rels) ==>
                  cls.model.fields[attrs[i].0].attname in res.fields)
            && (forall i :: 0 <= i < |attrs| && cls.model.fields[attrs[i].0].attname !in ToOneTargets(cls, rels) ==>
                  res.fields[cls.model.fields[attrs[i].0].attname] == attrs[i].1)
            && (forall f :: f !in AttributeTargets(cls.model, attrs) && f !in ToOneTargets(cls, rels) ==>
                  FieldKept(obj.GetOr(NewObject(cls.model)), res, f))
  {
    var start := if obj.None? then NewObject(cls.model) else obj.value;
    var attrs := data.attributes.value;
    WriteAttributesEffect(cls.model, start, attrs);
    AttributesWritten(cls.model, start, attrs);
  }

  // ---------------------------------------------------------------- the deferred write

  /** The primary keys of a collection's members, in order. */
  function Pks(ms: seq<Obj>): (ks: seq<Option<Id>>)
    ensures |ks| == |ms|
    ensures forall i :: 0 <= i < |ms| ==> ks[i] == ms[i].pk
  {
    seq(|ms|, i requires 0 <= i < |ms| => ms[i].pk)
  }

  /** The related manager's `add(*targets)`: objects already in the collection are not added again. */
  function AddAll(ms: seq<Obj>, ts: seq<Obj>): (r: seq<Obj>)
    ensures |ms| <= |r| && r[..|ms|] == ms
    ensures forall t :: t in ts ==> t.pk in Pks(r)
    ensures forall x :: x in r ==> x in ms || x in ts
    decreases |ts|
  {
    if |ts| == 0 then ms
    else
      var next := if ts[0].pk in Pks(ms) then ms else ms + [ts[0]];
      assert ts[0].pk in Pks(next) by {
        if ts[0].pk !in Pks(ms) {
          assert Pks(next)[|ms|] == ts[0].pk;
        }
      }
      var r := AddAll(next, ts[1..]);
      assert forall k :: 0 <= k < |next| ==> Pks(r)[k] == Pks(next)[k] by {
        forall k | 0 <= k < |next| ensures Pks(r)[k] == Pks(next)[k] {
          assert r[..|next|][k] == next[k];
        }
      }
      assert ts[0].pk in Pks(r) by {
        var k :| 0 <= k < |next| && Pks(next)[k] == ts[0].pk;
        assert Pks(r)[k] == ts[0].pk;
      }
      assert r[..|ms|] == next[..|ms|] == ms by {
        assert r[..|ms|] == r[..|next|][..|ms|];
      }
      r
  }

  /**
   The object the write goes to for the positional arguments of
   `obj.save_relationships(...)`. The closure is stored on the instance, so
   it is not bound: the first argument fills its `self` slot and is ignored,
   and only a second one is `parent`. Without a parent, or with `None`, the
   write goes to the object it was attached to.
   */
  function WriteParent(obj: Obj, args: seq<Option<Obj>>): Obj
  {
    if |args| == 2 && args[1].Some? then args[1].value else obj
  }

  /**
   Calling the attached `save_relationships` with the given positional
   arguments (each Python `None` or an object): add the validated targets to
   the collection reached through the accessor on the parent. The closure
   `save(self, parent=None)` takes one or two arguments; any other count is a
   `TypeError`.
   */
  function SaveRelationships(obj: Obj, args: seq<Option<Obj>>): (r: Result<Obj>)
    ensures obj.saveRelationships.None? ==> r == Err(AttributeError("save_relationships"))
    ensures obj.saveRelationships.Some? && (|args| == 0 || |args| > 2) ==> r == Err(TypeError)
    ensures r.Ok? ==>
      && obj.saveRelationships.Some? && 1 <= |args| <= 2
      && var w := obj.saveRelationships.value;
      && var p := WriteParent(obj, args);
      && w.accessor in p.fields && p.fields[w.accessor].Coll?
      && r.value.pk == p.pk
      && (forall f :: f != w.accessor ==> FieldKept(p, r.value, f))
      && w.accessor in r.value.fields && r.value.fields[w.accessor].Coll?
      && var before := p.fields[w.accessor].members;
      && var after := r.value.fields[w.accessor].members;
      && |before| <= |after|
      && after[..|before|] == before
      && (forall t :: t in w.targets ==> t.pk in Pks(after))
      && (forall x :: x in after ==> x in before || x in w.targets)
  {
    match obj.saveRelationships
    case None => Err(AttributeError("save_relationships"))
    case Some(w) =>
      if |args| == 0 || |args| > 2 then Err(TypeError)
      else
        var p := WriteParent(obj, args);
        var c :- GetAttr(p, w.accessor);
        if !c.Coll? then Err(AttributeError("add"))
        else Ok(p.(fields := p.fields[w.accessor := Coll(AddAll(c.members, w.targets))]))
  }

  /**
   The first argument never matters, and a single argument, being `self`,
   leaves the write on the object it was attached to.
   */
  lemma SelfArgumentIgnored(obj: Obj, x: Option<Obj>, y: Option<Obj>, rest: seq<Option<Obj>>)
    ensures SaveRelationships(obj, [x] + rest) == SaveRelationships(obj, [y] + rest)
    ensures SaveRelationships(obj, [x]) == SaveRelationships(obj, [None, None])
  {
    assert ([x] + rest)[1..] == rest == ([y] + rest)[1..];
  }
}

=== FILE: scenarios.dfy ===
/**
 How the operations fit together: what a client sends comes back out of
 `serializable`, and worked cases of the error messages, the include
 failure and the lookup map of a nested self link.
 */
module Scenarios {
  import opened Outcomes
  import opened Dicts
  import opened Text
  import opened Domain
  import opened Identity
  import opened Populator
  import opened Links
  import opened Includes
  import opened Serializer

  // ---------------------------------------------------------------- attributes round trip

  /**
   Every declared attribute is a column stored under its own name, and the
   class declares no relationships and no viewset.
   */
  predicate PlainColumns(cls: ResourceClass)
  {
    && cls.relationships == []
    && cls.boundViewset.None?
    && forall k :: k in cls.attributes ==>
         k in cls.model.fields && cls.model.fields[k].attname == k && cls.model.fields[k].kind.Column?
  }

  /** The value a declared attribute should read back: the payload's, or the fresh object's `None`. */
  function Expected(attrs: Dict<Value>, k: string): Value
  {
    Get(attrs, k).GetOr(NoneValue)
  }

  /**
   `populate` on a create payload whose attributes are all declared columns
   builds an object on which every declared attribute reads as the payload
   value, or as `None` when the payload left it out.
   */
  lemma PopulatedColumns(cls: ResourceClass, store: Store, attrs: Dict<Value>)
    requires UniqueKeys(attrs) && DistinctAttnames(cls.model) && NoPkField(cls.model) && PlainColumns(cls)
    requires forall i :: 0 <= i < |attrs| ==> attrs[i].0 in cls.attributes
    ensures var p := Populate(cls, store, Payload(Some(attrs), None), None);
            && p.Ok? && p.value.obj.pk.None?
            && forall k :: k in cls.attributes ==> HasAttr(p.value.obj, k) && Attr(p.value.obj, k) == Expected(attrs, k)
  {
    var data := Payload(Some(attrs), None);
    assert AllFields(cls.model, attrs);
    var p := Populate(cls, store, data, None);
    assert p.Ok?;
    PopulateWritesAttributes(cls, store, data, None);
    var obj := p.value.obj;
    assert ToOneTargets(cls, []) == {};
    forall k | k in cls.attributes ensures HasAttr(obj, k) && Attr(obj, k) == Expected(attrs, k) {
      assert k != "pk";
      if k in Keys(attrs) {
        var i :| 0 <= i < |attrs| && Keys(attrs)[i] == k;
        GetEntry(attrs, i);
      } else {
        assert k in ConcreteAttnames(cls.model);
        assert k !in AttributeTargets(cls.model, attrs) by {
          forall i | 0 <= i < |attrs| ensures cls.model.fields[attrs[i].0].attname != k {
            assert Keys(attrs)[i] == attrs[i].0;
          }
        }
      }
    }
  }

  /**
   A create request's attributes come back out of `serializable` from the
   resource `populate` builds: every declared attribute, in declared order,
   with its payload value or `None` when the payload left it out, so a
   payload that sends every declared attribute comes back unchanged. The id
   is "None" until the object is saved.
   */
  lemma AttributesRoundTrip(cls: ResourceClass, store: Store, attrs: Dict<Value>,
                            reverse: (string, Dict<string>) -> string,
                            absolute: (Request, string) -> string)
    requires UniqueKeys(attrs) && DistinctAttnames(cls.model) && NoPkField(cls.model)
    requires PlainColumns(cls) && Distinct(cls.attributes)
    requires forall i :: 0 <= i < |attrs| ==> attrs[i].0 in cls.attributes
    ensures var p := Populate(cls, store, Payload(Some(attrs), None), None);
            && p.Ok?
            && var s := Serializable(p.value, None, None, reverse, absolute);
            && s.Ok?
            && Keys(s.value.0.attributes) == cls.attributes
            && (forall k :: k in cls.attributes ==> Get(s.value.0.attributes, k) == Some(Expected(attrs, k)))
            && (Keys(attrs) == cls.attributes ==> s.value.0.attributes == attrs)
            && s.value.0.id == "None"
            && s.value.0.relationships.None?
            && s.value.0.selfLink.None?
  {
    PopulatedColumns(cls, store, attrs);
    var res := Populate(cls, store, Payload(Some(attrs), None), None).value;
    SerializedColumns(res, reverse, absolute);
    var got := Serializable(res, None, None, reverse, absolute).value.0.attributes;
    if Keys(attrs) == cls.attributes {
      forall i | 0 <= i < |attrs| ensures got[i] == attrs[i] {
        assert cls.attributes[i] == attrs[i].0;
        GetEntry(attrs, i);
      }
    }
  }

  /**
   A resource of such a class whose object has every declared attribute
   serializes to exactly those attributes, in declared order.
   */
  lemma SerializedColumns(res: Resource, reverse: (string, Dict<string>) -> string, absolute: (Request, string) -> string)
    requires PlainColumns(res.cls) && Distinct(res.cls.attributes)
    requires forall k :: k in res.cls.attributes ==> HasAttr(res.obj, k)
    ensures var s := Serializable(res, None, None, reverse, absolute);
            && s.Ok?
            && |s.value.0.attributes| == |res.cls.attributes|
            && (forall i :: 0 <= i < |res.cls.attributes| ==>
                  s.value.0.attributes[i] == (res.cls.attributes[i], Attr(res.obj, res.cls.attributes[i])))
            && Keys(s.value.0.attributes) == res.cls.attributes
            && s.value.0.id == IdString(res.obj.pk)
            && s.value.0.relationships.None?
            && s.value.0.selfLink.None?
  {
    assert ReadAttributes(res.obj, res.cls.attributes, []).Ok?;
    assert Serializable(res, None, None, reverse, absolute).Ok?;
    SerializedInDeclaredOrder(res, None, None, reverse, absolute);
  }

  /** A post model with a title column and a nullable forward key to its author. */
  const PostModel := Model(map["title" := Field("title", "title", Column), "author" := AuthorField])
  const Posts := ResourceClass("posts", PostModel, ["title"], [("author", Relationship("author", false, None))], None)

  /**
   A post created without an author serializes its to-one as null: the fresh
   object reads `None` under the forward key's name.
   */
  lemma FreshToOneIsNull(store: Store, reverse: (string, Dict<string>) -> string, absolute: (Request, string) -> string)
    ensures var p := Populate(Posts, store, Payload(Some([("title", Plain("X"))]), None), None);
            && p.Ok?
            && var s := Serializable(p.value, None, None, reverse, absolute);
            && s.Ok?
            && s.value.0.attributes == [("title", Plain("X"))]
            && s.value.0.relationships == Some([("author", ToOne(None))])
  {
    var attrs := [("title", Plain("X"))];
    assert AllFields(PostModel, attrs);
    assert "author" in ForwardKeyNames(PostModel);
    var p := Populate(Posts, store, Payload(Some(attrs), None), None);
    assert p.Ok?;
    var obj := p.value.obj;
    assert obj.fields == NewObject(PostModel).fields["title" := Plain("X")];
    assert Attr(obj, "title") == Plain("X") && Attr(obj, "author") == NoneValue;
    assert RelationshipEntry(obj, "author", Posts.relationships[0].1) == Ok(ToOne(None));
    PutNew([], "title", Plain("X"));
    PutNew([], "author", ToOne(None));
  }

  // ---------------------------------------------------------------- error messages

  /** A tag model reached through the many-to-many field `tags`; one tag, "1", is stored. */
  const TagField := Field("tags", "tags", ManyToMany("tag"))
  const TagObj := Obj(Some("1"), map[], None)
  const TagStore: Store := map["tag" := map["1" := TagObj]]
  const Tags := Relationship("tag", true, None)

  /**
   Two of three requested tags are missing: the error names the relationship
   and lists the missing ids sorted, whatever order the payload gave them in.
   */
  lemma MissingTagsMessage()
    ensures CollectionWrite(Model(map["tags" := TagField]), TagStore, "tags", Tags, Many(["9", "1", "3"]))
            == Err(ValidationError("tags", ManyMessage("tags", ["3", "9"])))
  {
    var m := Model(map["tags" := TagField]);
    var table := TagStore["tag"];
    assert StorageName(Tags, "tags") == "tags";
    assert GetField(m, "tags") == Ok(TagField);
    assert CollectionTarget(TagField) == Ok(("tag", "tags"));
    assert TableOf(TagStore, "tag") == table;
    assert LinkageIds(Many(["9", "1", "3"])) == Ok(["9", "1", "3"]);
    TagsMissing();
  }

  /** Of "9", "1" and "3", the tag table lacks "3" and "9", which sort as written. */
  lemma TagsMissing()
    ensures SortUnique(Absent(["9", "1", "3"], TagStore["tag"])) == ["3", "9"]
  {
    var table := TagStore["tag"];
    assert Absent(["9", "1", "3"], table) == ["9", "3"] by {
      assert Absent(["3"], table) == ["3"];
      assert ["9", "1", "3"][1..] == ["1", "3"] && ["1", "3"][1..] == ["3"];
    }
    SortedPair();
    SortedUnique(SortUnique(["9", "3"]), ["3", "9"]);
  }

  lemma SortedPair()
    ensures StrictlySorted(["3", "9"]) && Elems(["3", "9"]) == Elems(["9", "3"])
  {
    assert Below("3", "9");
  }

  /** An author model reached through the foreign key `author`; nothing is stored. */
  const AuthorField := Field("author", "author_id", ForeignKey("author"))

  /** A to-one id with no object fails naming the relationship and the id. */
  lemma MissingAuthorMessage(obj: Obj)
    ensures LinkToOne(Model(map["author" := AuthorField]), map[], obj, "author", Relationship("author", false, None), One("7"))
            == Err(ValidationError("author", ToOneMessage("author", "7")))
  {
    var m := Model(map["author" := AuthorField]);
    var rel := Relationship("author", false, None);
    assert StorageName(rel, "author") == "author";
    assert GetField(m, "author") == Ok(AuthorField);
    assert ToOneTarget(AuthorField) == Ok("author");
    assert TableOf(map[], "author") == map[];
  }

  /** A post model with a title, its tags (many-to-many) and its comments (a reverse relation). */
  const CommentsField := Field("comments", "comments", Reverse("comment", "comment_set"))
  const TaggedModel := Model(map["title" := Field("title", "title", Column), "tags" := TagField, "comments" := CommentsField])

  /**
   Payload attributes that name relations: a reverse relation has no storage
   attribute, and the many-to-many descriptor refuses an unsaved object but
   takes the value on a saved one.
   */
  lemma RelationAttributesRefused(v: Value)
    ensures WriteAttributes(TaggedModel, NewObject(TaggedModel), [("title", Plain("X")), ("comments", v)])
            == Err(AttributeError("attname"))
    ensures WriteAttributes(TaggedModel, NewObject(TaggedModel), [("tags", v)]) == Err(ValueError)
    ensures WriteAttributes(TaggedModel, Obj(Some("5"), map[], None), [("tags", v)]).Ok?
  {
    var m := TaggedModel;
    assert GetField(m, "title") == Ok(m.fields["title"]);
    assert GetField(m, "comments") == Ok(CommentsField);
    assert GetField(m, "tags") == Ok(TagField);
  }

  /**
   A to-one relationship declared over a many-to-many field finds its target
   but cannot store it: `ValueError` on an unsaved object, `TypeError` on a
   saved one.
   */
  lemma ToOneOverManyToManyFails(obj: Obj)
    ensures LinkToOne(TaggedModel, TagStore, obj, "tags", Relationship("tag", false, None), One("1"))
            == Err(if obj.pk.None? then ValueError else TypeError)
  {
    var m := TaggedModel;
    var rel := Relationship("tag", false, None);
    assert StorageName(rel, "tags") == "tags";
    assert GetField(m, "tags") == Ok(TagField);
    assert ToOneTarget(TagField) == Ok("tag");
    assert TableOf(TagStore, "tag") == TagStore["tag"];
  }

  /** An include path whose head is not a declared relationship. */
  lemma UnknownIncludeMessage(res: Resource)
    requires "ghost" !in Keys(res.cls.relationships)
    ensures ResolveInclude(res, PathStr("ghost"), [])
            == Err(SerializationError(NotIncludable("ghost")))
  {
    SplitAtFirstDot("ghost");
    assert '.' !in "ghost";
    assert SplitPath("ghost").0 == "ghost";
    UndeclaredHeadFails(res, "ghost", []);
  }

  // ---------------------------------------------------------------- self links

  /**
   A comment resource nested under an entry route: the root level records the
   resource's own key under "entry", the nested level the key of the object
   its "post" attribute leads to, in that order.
   */
  lemma NestedLinkKwargs(reverse: (string, Dict<string>) -> string, absolute: (Request, string) -> string)
    ensures var post := Obj(Some("8"), map[], None);
            var obj := Obj(Some("5"), map["post" := Ref(post)], None);
            var entries := ResourceClass("entries", Model(map[]), [], [], Some(Viewset(None, "entry", "entry")));
            var cls := ResourceClass("comments", Model(map[]), [], [], Some(Viewset(Some(entries), "post", "comment")));
            GetSelfLink(Resource(cls, obj), None, reverse, absolute)
              == Ok(reverse("comment-detail", [("entry", "5"), ("post", "8")]))
  {
    var post := Obj(Some("8"), map[], None);
    var obj := Obj(Some("5"), map["post" := Ref(post)], None);
    var entries := ResourceClass("entries", Model(map[]), [], [], Some(Viewset(None, "entry", "entry")));
    var cls := ResourceClass("comments", Model(map[]), [], [], Some(Viewset(Some(entries), "post", "comment")));
    PutNew([], "entry", "5");
    assert Resolve(entries, obj) == Ok((obj, [("entry", "5")]));
    assert Deref(obj, "post") == Ok(post);
    assert Keys([("entry", "5")]) == ["entry"];
    PutNew([("entry", "5")], "post", "8");
    assert [("entry", "5")] + [("post", "8")] == [("entry", "5"), ("post", "8")];
    assert Resolve(cls, obj) == Ok((post, [("entry", "5"), ("post", "8")]));
    assert "comment" + "-detail" == "comment-detail";
  }

  /**
   When two levels share the lookup field "post", the deeper level's key
   overwrites the root's in place: the map keeps a single entry.
   */
  lemma SharedLookupCollapses(reverse: (string, Dict<string>) -> string, absolute: (Request, string) -> string)
    ensures var post := Obj(Some("8"), map[], None);
            var obj := Obj(Some("5"), map["post" := Ref(post)], None);
            var outer := ResourceClass("outer", Model(map[]), [], [], Some(Viewset(None, "post", "outer")));
            var cls := ResourceClass("inner", Model(map[]), [], [], Some(Viewset(Some(outer), "post", "inner")));
            GetSelfLink(Resource(cls, obj), None, reverse, absolute)
              == Ok(reverse("inner-detail", [("post", "8")]))
  {
    var post := Obj(Some("8"), map[], None);
    var obj := Obj(Some("5"), map["post" := Ref(post)], None);
    var outer := ResourceClass("outer", Model(map[]), [], [], Some(Viewset(None, "post", "outer")));
    var cls := ResourceClass("inner", Model(map[]), [], [], Some(Viewset(Some(outer), "post", "inner")));
    PutNew([], "post", "5");
    assert Resolve(outer, obj) == Ok((obj, [("post", "5")]));
    assert Deref(obj, "post") == Ok(post);
    assert Put([("post", "5")], "post", "8") == [("post", "8")];
    assert Resolve(cls, obj) == Ok((post, [("post", "8")]));
    assert "inner" + "-detail" == "inner-detail";
  }
}

=== FILE: serialize.dfy ===
/**
 `Resource.serializable(included, request)`: the resource object of a
 response. It reads the declared attributes into an ordered map, turns each
 declared relationship into identifier stubs (a list for a collection, an
 identifier or null for a to-one), runs the include paths, adds `links.self`
 when the class is bound to a viewset, and merges in `type` and `id`.
 */
module Serializer {
  import opened Outcomes
  import opened Dicts
  import opened Domain
  import opened Identity
  import opened Links
  import opened Includes

  /** The "data" of one relationship in the output. */
  datatype RelationshipData =
    | ToMany(items: seq<Identifier>)
    | ToOne(item: Option<Identifier>)

  /** The output resource object; absent optional members are left out of the document. */
  datatype Fragment = Fragment(
    typ: string,
    id: string,
    attributes: Dict<Value>,
    relationships: Option<Dict<RelationshipData>>,
    selfLink: Option<string>)

  /** The include set handed to `serializable`: its paths and the resources added to it. */
  datatype IncludeSet = IncludeSet(paths: seq<string>, added: seq<Related>)

  // ---------------------------------------------------------------- attributes

  /** `attributes[attr] = getattr(self.obj, attr)` for each declared attribute, in order. */
  function ReadAttributes(obj: Obj, names: seq<string>, acc: Dict<Value>): (r: Result<Dict<Value>>)
    ensures r.Ok? <==> forall i :: 0 <= i < |names| ==> HasAttr(obj, names[i])
    ensures r.Err? ==> exists i :: 0 <= i < |names| && !HasAttr(obj, names[i]) && r.error == AttributeError(names[i])
    decreases |names|
  {
    if |names| == 0 then Ok(acc)
    else
      var v :- GetAttr(obj, names[0]);
      var r := ReadAttributes(obj, names[1..], Put(acc, names[0], v));
      assert forall i :: 1 <= i < |names| ==> names[1..][i - 1] == names[i];
      r
  }

  /**
   The loop stops at the first declared attribute the object lacks: that one
   is the attribute the `AttributeError` names.
   */
  lemma {:induction false} ReadAttributesFailsAtFirst(obj: Obj, names: seq<string>, acc: Dict<Value>, i: int)
    requires 0 <= i < |names| && !HasAttr(obj, names[i])
    requires forall j :: 0 <= j < i ==> HasAttr(obj, names[j])
    ensures ReadAttributes(obj, names, acc) == Err(AttributeError(names[i]))
    decreases i
  {
    if i > 0 {
      assert forall j :: 0 <= j < i - 1 ==> names[1..][j] == names[j + 1];
      ReadAttributesFailsAtFirst(obj, names[1..], Put(acc, names[0], Attr(obj, names[0])), i - 1);
    }
  }

  /**
   Whatever the names, each declared attribute reads back as its field's
   value (a repeated name is written twice with the same value), and every
   other key keeps what it had before.
   */
  lemma {:induction false} ReadAttributesGets(obj: Obj, names: seq<string>, acc: Dict<Value>)
    requires ReadAttributes(obj, names, acc).Ok?
    ensures forall k :: k in names ==> Get(ReadAttributes(obj, names, acc).value, k) == Some(Attr(obj, k))
    ensures forall k :: k !in names ==> Get(ReadAttributes(obj, names, acc).value, k) == Get(acc, k)
    decreases |names|
  {
    if |names| > 0 {
      assert names[0] in names;
      var next := Put(acc, names[0], Attr(obj, names[0]));
      PutOthers(acc, names[0], Attr(obj, names[0]));
      assert ReadAttributes(obj, names, acc) == ReadAttributes(obj, names[1..], next);
      ReadAttributesGets(obj, names[1..], next);
      assert forall k :: k in names ==> k == names[0] || k in names[1..];
    }
  }

  /** The attribute map one entry per declared attribute, in declared order. */
  function AttributeEntries(obj: Obj, names: seq<string>): (d: Dict<Value>)
    requires forall i :: 0 <= i < |names| ==> HasAttr(obj, names[i])
    ensures |d| == |names|
    ensures forall i :: 0 <= i < |names| ==> d[i] == (names[i], Attr(obj, names[i]))
  {
    seq(|names|, i requires 0 <= i < |names| => (names[i], Attr(obj, names[i])))
  }

  /** No name occurs twice. */
  predicate Distinct(names: seq<string>)
  {
    forall i, j :: 0 <= i < j < |names| ==> names[i] != names[j]
  }

  /**
   With distinct declared attribute names, the attribute map holds exactly
   those names, in declared order, each with its field's value.
   */
  lemma {:induction false} AttributesInDeclaredOrder(obj: Obj, names: seq<string>, acc: Dict<Value>)
    requires Distinct(names) && ReadAttributes(obj, names, acc).Ok?
    requires forall k :: k in names ==> k !in Keys(acc)
    ensures ReadAttributes(obj, names, acc).value == acc + AttributeEntries(obj, names)
    decreases |names|
  {
    if |names| > 0 {
      var entry := (names[0], Attr(obj, names[0]));
      assert names[0] in names;
      ReadAttributesStep(obj, names, acc);
      NamesStayFresh(names, acc, entry.1);
      AttributesInDeclaredOrder(obj, names[1..], acc + [entry]);
      AttributeEntriesCons(obj, names);
      var tail := AttributeEntries(obj, names[1..]);
      AppendAssoc(acc, [entry], tail);
    }
  }

  /** After the first name is added, the remaining distinct names are still not keys. */
  lemma NamesStayFresh<V>(names: seq<string>, acc: Dict<V>, v: V)
    requires |names| > 0 && Distinct(names)
    requires forall k :: k in names ==> k !in Keys(acc)
    ensures Distinct(names[1..])
    ensures forall k :: k in names[1..] ==> k !in Keys(acc + [(names[0], v)])
  {
    var next := acc + [(names[0], v)];
    assert Keys(next) == Keys(acc) + [names[0]];
    forall k | k in names[1..] ensures k !in Keys(next) {
      var j :| 0 <= j < |names[1..]| && names[1..][j] == k;
      assert names[j + 1] == k;
    }
  }

  lemma AttributeEntriesCons(obj: Obj, names: seq<string>)
    requires |names| > 0 && forall i :: 0 <= i < |names| ==> HasAttr(obj, names[i])
    ensures AttributeEntries(obj, names) == [(names[0], Attr(obj, names[0]))] + AttributeEntries(obj, names[1..])
  {
  }

  lemma ReadAttributesStep(obj: Obj, names: seq<string>, acc: Dict<Value>)
    requires |names| > 0 && HasAttr(obj, names[0]) && names[0] !in Keys(acc)
    ensures ReadAttributes(obj, names, acc) == ReadAttributes(obj, names[1..], acc + [(names[0], Attr(obj, names[0]))])
  {
    PutNew(acc, names[0], Attr(obj, names[0]));
  }

  // ---------------------------------------------------------------- relationships

  /** The identifiers of a collection's objects, in collection order. */
  function IdentifiersOf(targetType: string, members: seq<Obj>): (ids: seq<Identifier>)
    ensures |ids| == |members|
    ensures forall i :: 0 <= i < |members| ==> ids[i] == IdentifierOf(targetType, members[i])
  {
    seq(|members|, i requires 0 <= i < |members| => IdentifierOf(targetType, members[i]))
  }

  /**
   The "data" of one declared relationship, read from the attribute named like
   the relationship: every object of a collection, or the related object or
   null for a to-one.
   */
  function RelationshipEntry(obj: Obj, name: string, rel: Relationship): (r: Result<RelationshipData>)
    ensures r.Ok? ==> (r.value.ToMany? <==> rel.collection)
  {
    if rel.collection then
      var members :- Members(obj, name);
      Ok(ToMany(IdentifiersOf(rel.targetType, members)))
    else
      var v :- GetAttr(obj, name);
      match v
      case NoneValue => Ok(ToOne(None))
      case Ref(o) => Ok(ToOne(Some(IdentifierOf(rel.targetType, o))))
      case _ => Err(AttributeError("pk"))
  }

  /**
   A collection's entry lists the identifier of every object it holds, in
   collection order, and fails when the attribute is not a related manager; a
   to-one entry is null or the related object's identifier, and fails on
   anything else.
   */
  lemma RelationshipEntryShape(obj: Obj, name: string, rel: Relationship)
    ensures var r := RelationshipEntry(obj, name, rel);
            && (rel.collection ==> (r.Ok? <==> Members(obj, name).Ok?))
            && (rel.collection && r.Ok? ==> r.value.ToMany? && |r.value.items| == |Members(obj, name).value|)
            && (rel.collection && r.Ok? ==> forall i :: 0 <= i < |r.value.items| ==>
                  r.value.items[i] == IdentifierOf(rel.targetType, Members(obj, name).value[i]))
            && (!rel.collection ==>
                  (r.Ok? <==> HasAttr(obj, name) && (Attr(obj, name).NoneValue? || Attr(obj, name).Ref?)))
            && (!rel.collection && r.Ok? && Attr(obj, name).NoneValue? ==> r.value == ToOne(None))
            && (!rel.collection && r.Ok? && Attr(obj, name).Ref? ==>
                  r.value == ToOne(Some(IdentifierOf(rel.targetType, Attr(obj, name).target))))
  {
  }

  /** The relationship loop: one entry per declared relationship, in declared order. */
  function ReadRelationships(obj: Obj, rels: Dict<Relationship>, acc: Dict<RelationshipData>): (r: Result<Dict<RelationshipData>>)
    ensures r.Ok? ==> (|r.value| == 0 <==> |acc| == 0 && |rels| == 0)
    ensures r.Ok? ==> forall i :: 0 <= i < |rels| ==> RelationshipEntry(obj, rels[i].0, rels[i].1).Ok?
    decreases |rels|
  {
    if |rels| == 0 then Ok(acc)
    else
      var data :- RelationshipEntry(obj, rels[0].0, rels[0].1);
      var r := ReadRelationships(obj, rels[1..], Put(acc, rels[0].0, data));
      assert forall i :: 1 <= i < |rels| ==> rels[1..][i - 1] == rels[i];
      r
  }

  lemma ReadRelationshipsStep(obj: Obj, rels: Dict<Relationship>, acc: Dict<RelationshipData>)
    requires |rels| > 0 && RelationshipEntry(obj, rels[0].0, rels[0].1).Ok? && rels[0].0 !in Keys(acc)
    ensures ReadRelationships(obj, rels, acc)
              == ReadRelationships(obj, rels[1..], acc + [(rels[0].0, RelationshipEntry(obj, rels[0].0, rels[0].1).value)])
  {
    PutNew(acc, rels[0].0, RelationshipEntry(obj, rels[0].0, rels[0].1).value);
  }

  /**
   With unique relationship names, the relationships map lists exactly the
   declared relationships, in declared order, each with its entry.
   */
  lemma {:induction false} RelationshipsInDeclaredOrder(obj: Obj, rels: Dict<Relationship>, acc: Dict<RelationshipData>)
    requires UniqueKeys(rels) && ReadRelationships(obj, rels, acc).Ok?
    requires forall k :: k in Keys(rels) ==> k !in Keys(acc)
    ensures ReadRelationships(obj, rels, acc).value == acc + RelationshipEntries(obj, rels)
    decreases |rels|
  {
    if |rels| > 0 {
      var entry := (rels[0].0, RelationshipEntry(obj, rels[0].0, rels[0].1).value);
      var next := acc + [entry];
      assert ReadRelationships(obj, rels, acc) == ReadRelationships(obj, rels[1..], next) by {
        assert rels[0].0 in Keys(rels);
        ReadRelationshipsStep(obj, rels, acc);
      }
      assert ReadRelationships(obj, rels[1..], next).value == next + RelationshipEntries(obj, rels[1..]) by {
        RelationshipNamesStayFresh(rels, acc, entry.1);
        RelationshipsInDeclaredOrder(obj, rels[1..], next);
      }
      assert RelationshipEntries(obj, rels) == [entry] + RelationshipEntries(obj, rels[1..]) by {
        RelationshipEntriesCons(obj, rels);
      }
      var tail := RelationshipEntries(obj, rels[1..]);
      AppendAssoc(acc, [entry], tail);
    }
  }

  /** The relationships map one entry per declared relationship, in declared order. */
  function RelationshipEntries(obj: Obj, rels: Dict<Relationship>): (d: Dict<RelationshipData>)
    requires forall i :: 0 <= i < |rels| ==> RelationshipEntry(obj, rels[i].0, rels[i].1).Ok?
    ensures |d| == |rels|
    ensures forall i :: 0 <= i < |rels| ==> d[i] == (rels[i].0, RelationshipEntry(obj, rels[i].0, rels[i].1).value)
  {
    seq(|rels|, i requires 0 <= i < |rels| => (rels[i].0, RelationshipEntry(obj, rels[i].0, rels[i].1).value))
  }

  lemma RelationshipEntriesCons(obj: Obj, rels: Dict<Relationship>)
    requires |rels| > 0 && forall i :: 0 <= i < |rels| ==> RelationshipEntry(obj, rels[i].0, rels[i].1).Ok?
    ensures RelationshipEntries(obj, rels)
              == [(rels[0].0, RelationshipEntry(obj, rels[0].0, rels[0].1).value)] + RelationshipEntries(obj, rels[1..])
  {
  }

  /** After the first relationship is added, the remaining unique names are still not keys. */
  lemma RelationshipNamesStayFresh(rels: Dict<Relationship>, acc: Dict<RelationshipData>, v: RelationshipData)
    requires |rels| > 0 && UniqueKeys(rels)
    requires forall k :: k in Keys(rels) ==> k !in Keys(acc)
    ensures UniqueKeys(rels[1..])
    ensures forall k :: k in Keys(rels[1..]) ==> k !in Keys(acc + [(rels[0].0, v)])
  {
    var next := acc + [(rels[0].0, v)];
    assert Keys(next) == Keys(acc) + [rels[0].0];
    assert rels[0].0 in Keys(rels);
    forall k | k in Keys(rels[1..]) ensures k !in Keys(next) {
      var j :| 0 <= j < |rels[1..]| && Keys(rels[1..])[j] == k;
      assert rels[j + 1].0 == k;
      assert k in Keys(rels);
    }
  }

  // ---------------------------------------------------------------- includes and assembly

  /** `for path in included.paths: resolve_include(self, path, included)`. */
  function IncludeAll(res: Resource, paths: seq<string>, added: seq<Related>): (r: Result<seq<Related>>)
    ensures r.Ok? ==> added <= r.value
    decreases |paths|
  {
    if |paths| == 0 then Ok(added)
    else
      ResolveIncludeAppends(res, PathStr(paths[0]), added);
      var next :- ResolveInclude(res, PathStr(paths[0]), added);
      IncludeAll(res, paths[1..], next)
  }

  /**
   What the include paths add on their own, path after path, each path's
   additions being those of `resolve_include` on an empty include set; the
   first failing path's error stops the loop.
   */
  function PathAdditions(res: Resource, paths: seq<string>): Result<seq<Related>>
    decreases |paths|
  {
    if |paths| == 0 then Ok([])
    else
      var first :- ResolveInclude(res, PathStr(paths[0]), []);
      var more :- PathAdditions(res, paths[1..]);
      Ok(first + more)
  }

  /**
   Running the paths adds, after what the include set already held, each
   path's own additions in path order, and fails with the first failing
   path's error.
   */
  lemma {:induction false} IncludeAllAppends(res: Resource, paths: seq<string>, added: seq<Related>)
    ensures IncludeAll(res, paths, added).Ok? <==> PathAdditions(res, paths).Ok?
    ensures IncludeAll(res, paths, added).Ok? ==> IncludeAll(res, paths, added).value == added + PathAdditions(res, paths).value
    ensures IncludeAll(res, paths, added).Err? ==> IncludeAll(res, paths, added).error == PathAdditions(res, paths).error
    decreases |paths|
  {
    if |paths| > 0 {
      ResolveIncludeAppends(res, PathStr(paths[0]), added);
      var first := ResolveInclude(res, PathStr(paths[0]), []);
      if first.Ok? {
        var next := added + first.value;
        assert IncludeAll(res, paths, added) == IncludeAll(res, paths[1..], next);
        IncludeAllAppends(res, paths[1..], next);
        if PathAdditions(res, paths[1..]).Ok? {
          AppendAssoc(added, first.value, PathAdditions(res, paths[1..]).value);
        }
      }
    }
  }

  /** `Resource.serializable(included, request)`. */
  function Serializable(res: Resource, included: Option<IncludeSet>, request: Option<Request>,
                        reverse: (string, Dict<string>) -> string,
                        absolute: (Request, string) -> string): (r: Result<(Fragment, Option<IncludeSet>)>)
    ensures r.Ok? ==> r.value.0.typ == res.cls.apiType && r.value.0.id == IdString(res.obj.pk)
    ensures r.Ok? ==> Identifier(r.value.0.typ, r.value.0.id) == GetIdentifier(res)
    ensures r.Ok? ==> forall k :: k in res.cls.attributes ==> HasAttr(res.obj, k)
    ensures r.Ok? ==> forall k :: k in res.cls.attributes ==> Get(r.value.0.attributes, k) == Some(Attr(res.obj, k))
    ensures r.Ok? ==> forall k :: k !in res.cls.attributes ==> Get(r.value.0.attributes, k).None?
    ensures r.Ok? ==> (r.value.0.relationships.Some? <==> |res.cls.relationships| > 0)
    ensures r.Ok? ==> (r.value.0.selfLink.Some? <==> res.cls.boundViewset.Some?)
    ensures r.Ok? && r.value.0.selfLink.Some? ==>
              GetSelfLink(res, request, reverse, absolute) == Ok(r.value.0.selfLink.value)
    ensures r.Ok? ==> (r.value.1.Some? <==> included.Some?)
    ensures r.Ok? && included.Some? ==>
              r.value.1.value.paths == included.value.paths && included.value.added <= r.value.1.value.added
    ensures (exists k :: k in res.cls.attributes && !HasAttr(res.obj, k)) ==> r.Err? && r.error.AttributeError?
  {
    var attributes :- ReadAttributes(res.obj, res.cls.attributes, []);
    ReadAttributesGets(res.obj, res.cls.attributes, []);
    var relationships :- ReadRelationships(res.obj, res.cls.relationships, []);
    var inc :- if included.Some? then
                 var added :- IncludeAll(res, included.value.paths, included.value.added);
                 Ok(Some(IncludeSet(included.value.paths, added)))
               else Ok(None);
    var link :- if res.cls.boundViewset.Some? then
                  var l :- GetSelfLink(res, request, reverse, absolute);
                  Ok(Some(l))
                else Ok(None);
    var ident := GetIdentifier(res);
    Ok((Fragment(ident.typ, ident.id, attributes, if |relationships| > 0 then Some(relationships) else None, link), inc))
  }

  /**
   With distinct declared names, the output's attribute map is exactly the
   declared attributes in declared order, and its relationships map (when
   present) exactly the declared relationships in declared order: a list of
   identifiers in collection order for a collection, an identifier or null
   for a to-one.
   */
  lemma SerializedInDeclaredOrder(res: Resource, included: Option<IncludeSet>, request: Option<Request>,
                                  reverse: (string, Dict<string>) -> string,
                                  absolute: (Request, string) -> string)
    requires Distinct(res.cls.attributes) && UniqueKeys(res.cls.relationships)
    requires Serializable(res, included, request, reverse, absolute).Ok?
    ensures var frag := Serializable(res, included, request, reverse, absolute).value.0;
            && frag.attributes == AttributeEntries(res.obj, res.cls.attributes)
            && (frag.relationships.Some? ==>
                  && (forall i :: 0 <= i < |res.cls.relationships| ==>
                        RelationshipEntry(res.obj, res.cls.relationships[i].0, res.cls.relationships[i].1).Ok?)
                  && frag.relationships.value == RelationshipEntries(res.obj, res.cls.relationships))
  {
    AttributesInDeclaredOrder(res.obj, res.cls.attributes, []);
    RelationshipsInDeclaredOrder(res.obj, res.cls.relationships, []);
  }
}

=== FILE: text.dfy ===
/**
 String helpers the engine relies on: Python's ordering of `str` values (code
 point by code point), `sorted(set)` as a duplicate-free sorted sequence,
 `", ".join(...)`, and substring containment.
 */
module Text {

  /** Python's `a < b` on strings: lexicographic by code point, a proper prefix first. */
  predicate Below(a: string, b: string)
  {
    |b| > 0 && (|a| == 0 || a[0] < b[0] || (a[0] == b[0] && Below(a[1..], b[1..])))
  }

  lemma {:induction false} BelowIrreflexive(a: string)
    ensures !Below(a, a)
  {
    if |a| > 0 {
      BelowIrreflexive(a[1..]);
    }
  }

  lemma {:induction false} BelowTransitive(a: string, b: string, c: string)
    requires Below(a, b) && Below(b, c)
    ensures Below(a, c)
  {
    if |a| > 0 && a[0] == b[0] && b[0] == c[0] {
      BelowTransitive(a[1..], b[1..], c[1..]);
    }
  }

  lemma {:induction false} BelowTotal(a: string, b: string)
    ensures a == b || Below(a, b) || Below(b, a)
  {
    if |a| > 0 && |b| > 0 && a[0] == b[0] {
      BelowTotal(a[1..], b[1..]);
      if a[1..] == b[1..] {
        assert a == [a[0]] + a[1..] && b == [b[0]] + b[1..];
      }
    }
  }

  lemma BelowAsymmetric(a: string, b: string)
    requires Below(a, b)
    ensures !Below(b, a)
  {
    if Below(b, a) {
      BelowTransitive(a, b, a);
      BelowIrreflexive(a);
    }
  }

  /** The elements of a sequence, as Python's `set(xs)`. */
  function Elems(xs: seq<string>): set<string>
  {
    set x | x in xs
  }

  lemma NoElemsIsEmpty(xs: seq<string>)
    ensures Elems(xs) == {} ==> xs == []
  {
    if xs != [] {
      assert xs[0] in Elems(xs);
    }
  }

  /** Strictly increasing, hence also free of duplicates. */
  predicate StrictlySorted(s: seq<string>)
  {
    forall i, j :: 0 <= i < j < |s| ==> Below(s[i], s[j])
  }

  /** Adds `x` to a strictly sorted sequence, keeping it strictly sorted. */
  function Insert(x: string, s: seq<string>): (r: seq<string>)
    requires StrictlySorted(s)
    ensures StrictlySorted(r)
    ensures Elems(r) == Elems(s) + {x}
    decreases |s|
  {
    if |s| == 0 then [x]
    else if x == s[0] then s
    else if Below(x, s[0]) then
      InsertFrontSorted(x, s);
      [x] + s
    else
      BelowTotal(x, s[0]);
      var tail := Insert(x, s[1..]);
      assert Elems(s) == {s[0]} + Elems(s[1..]) by {
        assert s == [s[0]] + s[1..];
      }
      assert forall z :: z in tail ==> Below(s[0], z) by {
        forall z | z in tail ensures Below(s[0], z) {
          assert z in Elems(tail);
          if z != x {
            var k :| 0 <= k < |s[1..]| && s[1..][k] == z;
            assert s[k + 1] == z;
          }
        }
      }
      InsertConsSorted(s[0], tail);
      assert Elems([s[0]] + tail) == {s[0]} + Elems(tail);
      [s[0]] + tail
  }

  lemma InsertFrontSorted(x: string, s: seq<string>)
    requires StrictlySorted(s) && |s| > 0 && Below(x, s[0])
    ensures StrictlySorted([x] + s)
  {
    forall j | 0 < j < |s| ensures Below(x, s[j]) {
      BelowTransitive(x, s[0], s[j]);
    }
  }

  lemma InsertConsSorted(y: string, t: seq<string>)
    requires StrictlySorted(t)
    requires forall z :: z in t ==> Below(y, z)
    ensures StrictlySorted([y] + t)
  {
    forall i, j | 0 <= i < j < |[y] + t| ensures Below(([y] + t)[i], ([y] + t)[j]) {
      if i > 0 {
        assert ([y] + t)[i] == t[i - 1] && ([y] + t)[j] == t[j - 1];
      } else {
        assert ([y] + t)[j] in t;
      }
    }
  }

  /** A strictly sorted sequence holds each of its elements once. */
  lemma {:induction false} SortedCount(s: seq<string>)
    requires StrictlySorted(s)
    ensures |Elems(s)| == |s|
  {
    if |s| > 0 {
      assert StrictlySorted(s[1..]) by {
        forall i, j | 0 <= i < j < |s[1..]| ensures Below(s[1..][i], s[1..][j]) {
          assert s[1..][i] == s[i + 1] && s[1..][j] == s[j + 1];
        }
      }
      SortedCount(s[1..]);
      assert Elems(s) == {s[0]} + Elems(s[1..]) by {
        assert s == [s[0]] + s[1..];
      }
      assert s[0] !in Elems(s[1..]) by {
        forall j | 0 <= j < |s[1..]| ensures s[1..][j] != s[0] {
          assert Below(s[0], s[j + 1]);
          BelowIrreflexive(s[0]);
        }
      }
    }
  }

  /** Python's `sorted(set(xs))`: the elements of `xs`, once each, in increasing order. */
  function SortUnique(xs: seq<string>): (r: seq<string>)
    ensures StrictlySorted(r)
    ensures Elems(r) == Elems(xs)
    decreases |xs|
  {
    if |xs| == 0 then []
    else
      assert Elems(xs) == Elems(xs[1..]) + {xs[0]} by {
        assert xs == [xs[0]] + xs[1..];
      }
      Insert(xs[0], SortUnique(xs[1..]))
  }

  /** A strictly sorted sequence is determined by its set of elements. */
  lemma {:induction false} SortedUnique(a: seq<string>, b: seq<string>)
    requires StrictlySorted(a) && StrictlySorted(b)
    requires Elems(a) == Elems(b)
    ensures a == b
    decreases |a|
  {
    if |a| == 0 {
      NoElemsIsEmpty(b);
    } else {
      assert a[0] in Elems(b);
      assert b != [];
      assert b[0] in Elems(a);
      if a[0] != b[0] {
        var i :| 0 <= i < |a| && a[i] == b[0];
        var j :| 0 <= j < |b| && b[j] == a[0];
        assert Below(a[0], a[i]) && Below(b[0], b[j]);
        BelowAsymmetric(a[0], b[0]);
        assert false;
      }
      assert Elems(a[1..]) == Elems(a) - {a[0]} by {
        assert a == [a[0]] + a[1..];
        forall k | 0 <= k < |a[1..]| ensures a[1..][k] != a[0] {
          BelowIrreflexive(a[0]);
          assert Below(a[0], a[k + 1]);
        }
      }
      assert Elems(b[1..]) == Elems(b) - {b[0]} by {
        assert b == [b[0]] + b[1..];
        forall k | 0 <= k < |b[1..]| ensures b[1..][k] != b[0] {
          BelowIrreflexive(b[0]);
          assert Below(b[0], b[k + 1]);
        }
      }
      SortedUnique(a[1..], b[1..]);
      assert a == [a[0]] + a[1..] && b == [b[0]] + b[1..];
    }
  }

  /** `sep.join(parts)`. */
  function Join(parts: seq<string>, sep: string): string
    decreases |parts|
  {
    if |parts| == 0 then ""
    else if |parts| == 1 then parts[0]
    else parts[0] + sep + Join(parts[1..], sep)
  }

  /** `needle in hay` on strings. */
  ghost predicate IsInfix(needle: string, hay: string)
  {
    exists i :: OccursAt(needle, hay, i)
  }

  /** `needle` starts at position `i` of `hay`. */
  predicate OccursAt(needle: string, hay: string, i: int)
  {
    0 <= i <= |hay| - |needle| && hay[i..i + |needle|] == needle
  }

  lemma InfixAt(needle: string, pre: string, post: string)
    ensures IsInfix(needle, pre + needle + post)
  {
    var hay := pre + needle + post;
    assert hay[|pre|..|pre| + |needle|] == needle;
    assert OccursAt(needle, hay, |pre|);
  }

  lemma InfixExtend(needle: string, mid: string, pre: string, post: string)
    requires IsInfix(needle, mid)
    ensures IsInfix(needle, pre + mid + post)
  {
    var i :| OccursAt(needle, mid, i);
    var hay := pre + mid + post;
    assert hay[|pre| + i..|pre| + i + |needle|] == mid[i..i + |needle|];
    assert OccursAt(needle, hay, |pre| + i);
  }

  /** Every part appears in the joined string. */
  lemma {:induction false} JoinContainsParts(parts: seq<string>, sep: string)
    ensures forall k :: 0 <= k < |parts| ==> IsInfix(parts[k], Join(parts, sep))
    decreases |parts|
  {
    if |parts| == 1 {
      InfixAt(parts[0], "", "");
      assert "" + parts[0] + "" == parts[0];
    } else if |parts| > 1 {
      var rest := Join(parts[1..], sep);
      JoinContainsParts(parts[1..], sep);
      forall k | 0 <= k < |parts| ensures IsInfix(parts[k], Join(parts, sep)) {
        if k == 0 {
          InfixAt(parts[0], "", sep + rest);
          assert "" + parts[0] + (sep + rest) == Join(parts, sep);
        } else {
          assert parts[k] == parts[1..][k - 1];
          InfixExtend(parts[k], rest, parts[0] + sep, "");
          assert parts[0] + sep + rest + "" == Join(parts, sep);
        }
      }
    }
  }
}
